=== FILE: README.md ===
# Career-coach front end: a Dafny model of its logic

This project models the small pieces of logic in the career-coach web front end that can be stated exactly. Most of that front end is presentation.

- **Quest ledger** (`src/lib/questStore.ts`). Four one-shot quests with XP rewards are kept in one local-storage slot. Completion and reset are broadcast as window events. The total XP is always derived from the list, never stored.
- **Quest badge** (`QuestWidget.tsx`). This covers the level table, the current-level search, the XP still needed, the progress bar and the completed count. The badge keeps its own hard-coded quest list. It never reads the ledger or listens to its events, and the model adds no such link.
- **Job card** (`JobMatchCard.tsx`). This covers score defaulting, score bands for colour, label and star, and the `completeQuest("job")` call made on every mount.
- **Simulated tools** (`src/lib/tambo.ts`). This covers resume keyword extraction with seniority bands, case-insensitive role lookup with a fallback, and a fixed learning-resource list.
- **Small transforms:**
  - learning-path progress and step labels (`LearningPath.tsx`);
  - the pivot of skill series into chart rows, plus colour and trend styling (`SkillTrends.tsx`);
  - level capitalisation and the priority and resource-icon mappings (`SkillGapCard.tsx`);
  - the hex-colour parser `hexToRgbA` (`beams-background.tsx`).
- **Theme provider** (`ThemeContext.tsx`). The theme starts as "dark", adopts a saved value when the provider mounts, and toggles between dark and light. Every toggle is persisted, and the root element's class list follows the theme.

The browser is abstracted away:
- Storage is a three-way slot: absent, holding a parsed quest list, or corrupt.
- Events are an append-only log.
- The module-level `DEFAULT_QUESTS` array is part of the state. `getQuests` hands out that array itself, and `completeQuest` changes it in place.
- Case mapping covers ASCII letters only. `includes` is substring containment.
- Float arithmetic is replaced by exact arithmetic. The widget's percentage uses `real`. The learning-path percentage is a `nat` computed with integer floor division, which gives exact rounding half up for `Math.round`.

The ledger is modelled as written. One function, `QuestStore.CompleteQuestWith`, takes a `Defaults` argument:
- `Shared` is the code as written. The default array is handed out and changed in place.
- `Copied` is the corrected ledger. Reads hand out a copy.

The job card's mount composes with the as-written ledger, because that is what the code calls. Idempotence, which the job card relies on, holds in both modes.

Where the code and its intended behaviour disagree, the model follows the code:
- `resetQuests` writes the current, possibly altered, default array. It does not necessarily write an all-incomplete list (see Findings).
- `getQuests` returns whatever list the slot parses to. It does not guarantee the fixed set of four quests.

## Model

| member | source | states |
|---|---|---|
| QuestStore.GetQuests | src/lib/questStore.ts:27-41 | a read returns the visible list and leaves it visible; it writes the defaults into an empty slot and otherwise writes nothing; a corrupt slot yields the default array itself and stays corrupt; outside a browser the defaults come back |
| QuestStore.Find | src/lib/questStore.ts:48 | finds the first record with the given id, or reports that no record has it |
| QuestStore.CompleteQuestWith | src/lib/questStore.ts:44-61 | events are only appended, at most one per call; outside a browser nothing changes; in `Copied` mode the default array is never altered |
| QuestStore.CompleteQuest | src/lib/questStore.ts:27-61 | as written: events are only appended, at most one per call; when the slot is empty or corrupt (lines 33, 39) the default array afterwards is exactly the list the completion leaves visible, because line 51 changes the handed-out default array in place; with a stored list the defaults are untouched |
| QuestStore.CompleteQuestCopying | src/lib/questStore.ts:44-61 | the corrected completion never alters the default array |
| QuestStore.ResetQuests | src/lib/questStore.ts:64-68 | reset persists the current default array, appends exactly one reset event and does nothing outside a browser |
| QuestStore.GetTotalXP | src/lib/questStore.ts:71-73 | the left-to-right `reduce` equals the sum of xp over completed records; the resulting state is the read's |
| QuestStore.CompletedXPMark | src/lib/questStore.ts:50-51 | marking one open record completed raises the sum by exactly its xp |
| QuestStore.NoneCompletedTotalsZero | src/lib/questStore.ts:71-73 | a list with no completed record totals 0 |
| QuestStore.CompletedXPBounds | src/lib/questStore.ts:71-73 | with non-negative rewards the total lies between 0 and the sum of all rewards, and equals that sum when every record is completed |
| QuestStore.FreshStoreReadsDefaults | src/lib/questStore.ts:19-34 | a fresh store reads as resume 500, roadmap 800, skill 400 and job 300, all incomplete; the read persists them; the total is 0 |
| QuestStore.FreshCompleteJob | src/lib/questStore.ts:44-59 | completing job on a fresh store broadcasts exactly {job, 300}, and the total becomes 300 |
| QuestStore.CompleteQuestMarksOne | src/lib/questStore.ts:44-59 | completing an open quest sets only that record's flag and leaves every other record unchanged; it persists the list, emits one event with the quest's id and xp, and raises the total by that xp |
| QuestStore.CompleteQuestNoOp | src/lib/questStore.ts:48-50 | an id absent from the list, or a quest already completed, causes no event and no write beyond the read's own initialisation |
| QuestStore.CompleteQuestIdempotent | src/lib/questStore.ts:50 | completing the same quest twice is the same as completing it once |
| QuestStore.StepExtends | src/lib/questStore.ts:27-61 | reads and completions keep every id, xp and completed flag of the visible list |
| QuestStore.RunWithoutResetExtends | src/lib/questStore.ts:44-68 | across any history without a reset, completion is monotone and the quest list keeps its shape |
| QuestStore.ResetCanClearFlags | src/lib/questStore.ts:64-68 | a reset can turn a completed flag back to false |
| QuestStore.ResetAfterCompletionKeepsIt | src/lib/questStore.ts:27-68 | as written, on an empty or corrupt slot, completing any open quest and then resetting stores that quest as completed, and the total keeps its xp |
| QuestStore.ResetAfterCorruptCompletionKeepsJob | src/lib/questStore.ts:37-68 | as written, with a corrupt slot, completing job and resetting stores job as completed, with a total of 300 |
| QuestStore.ResetAfterFreshCompletionKeepsJob | src/lib/questStore.ts:31-68 | as written, completing job on a fresh store and then resetting persists a list in which job is still completed, with a total of 300 |
| QuestStore.RunCopyingKeepsDefaults | src/lib/questStore.ts:33-51 | in the corrected ledger no history alters the default array |
| QuestStore.ResetRestoresDefaults | src/lib/questStore.ts:64-68 | in the corrected ledger, a reset after any history restores the four open default quests, with a total of 0 |
| QuestWidget.FindLevelFrom | src/components/gamification/QuestWidget.tsx:40-42 | `findIndex`: returns the first level whose predicate holds, or -1 when none does |
| QuestWidget.LevelIndex | src/components/gamification/QuestWidget.tsx:40-43 | exactly one level matches every total ≥ 0, so the current level is defined; a negative total matches none |
| QuestWidget.LevelOf | src/components/gamification/QuestWidget.tsx:22-28 | every non-negative total reaches some level of the table |
| QuestWidget.LevelUnique | src/components/gamification/QuestWidget.tsx:22-28 | at most one level's predicate holds for any total |
| QuestWidget.LevelMonotone | src/components/gamification/QuestWidget.tsx:40-42 | a larger total never shows a lower level |
| QuestWidget.BadgeFor | src/components/gamification/QuestWidget.tsx:40-47 | below Master: current minXP ≤ total < next minXP, "XP to next" (line 99) is next minXP − total and > 0, and progress is in [0, 100) with progress × (level width) = 100 × (total − current minXP); at 5000 XP or more: "Max", progress 100, rank Master; a negative total has no badge |
| QuestStore.SumCompletedXP | src/components/gamification/QuestWidget.tsx:50-53 | the widget's initial `reduce` (and the one in `getTotalXP`, questStore.ts:72), folded left to right, equals the sum of xp over the completed quests |
| QuestWidget.BadgeProgressWithinLevel | src/components/gamification/QuestWidget.tsx:40-47 | within one level below Master, progress is 0 exactly at the level's threshold and does not fall as the total grows |
| QuestWidget.CompletedCount | src/components/gamification/QuestWidget.tsx:48 | the completed count never exceeds the number of quests, and equals it exactly when every quest is completed |
| Seqs.Count | src/components/gamification/QuestWidget.tsx:48 | the length of a filter is at most the length of the list; it equals that length iff every element is kept, and is 0 iff none is |
| Seqs.CountAppend | src/components/gamification/QuestWidget.tsx:48 | the count of a joined list is the sum of the counts of its parts |
| Seqs.CountSingle | src/components/gamification/QuestWidget.tsx:48 | one element counts 1 exactly when it is kept; with CountAppend this fixes the count of every list |
| QuestWidget.WidgetStartsAsExplorer | src/components/gamification/QuestWidget.tsx:33-53 | the hard-coded list totals 500 XP, rank Explorer, 1000 XP to next, progress 0, 1 of 4 complete |
| JobMatchCard.SafeMatchScore | src/components/generative/JobMatchCard.tsx:30-40 | a number is kept; a non-number becomes 0; a missing prop takes the default 75 |
| JobMatchCard.MatchColor | src/components/generative/JobMatchCard.tsx:47-51 | green exactly when score ≥ 80, red exactly when score < 60, yellow otherwise |
| JobMatchCard.ShowsStar | src/components/generative/JobMatchCard.tsx:71 | the star is shown exactly when the label is "Excellent Match" |
| JobMatchCard.MatchLabel | src/components/generative/JobMatchCard.tsx:53-57 | "Excellent Match" iff score ≥ 80, "Good Match" iff 60 ≤ score < 80, "Needs Work" iff score < 60 |
| JobMatchCard.ColorAndLabelAgree | src/components/generative/JobMatchCard.tsx:47-57 | colour and label always fall in the same band, the band of the score |
| JobMatchCard.StarIffExcellent | src/components/generative/JobMatchCard.tsx:71 | the star is shown iff the label is "Excellent Match" |
| JobMatchCard.NonNumericScoreNeedsWork | src/components/generative/JobMatchCard.tsx:40-57 | a non-numeric score is labelled "Needs Work", coloured red and gets no star |
| JobMatchCard.Mount | src/components/generative/JobMatchCard.tsx:43-45 | a mount broadcasts at most one event |
| JobMatchCard.MountsActOnce | src/components/generative/JobMatchCard.tsx:43-45 | any positive number of mounts has exactly the effect of one |
| JobMatchCard.FreshMountsAwardJobOnce | src/components/generative/JobMatchCard.tsx:43-45 | on a fresh store, any positive number of mounts leaves a total of exactly 300 |
| Ascii.ToLower | src/lib/tambo.ts:35 | lower-casing keeps the length and lower-cases each ASCII letter |
| Ascii.Includes | src/lib/tambo.ts:36 | `includes` holds iff the needle occurs at some index of the text |
| Ascii.IncludesPrefix | src/lib/tambo.ts:36 | every prefix of an included string is included |
| Ascii.ToLowerOfToUpper | src/lib/tambo.ts:35 | a string and its upper-cased spelling lower-case to the same text |
| TamboTools.KeywordsIn | src/lib/tambo.ts:36 | the filter result is an order-preserving subsequence of the keywords; a keyword is in it iff the text includes it |
| TamboTools.SeniorityFor | src/lib/tambo.ts:41 | senior iff more than 10 skills, mid iff 6 to 10, junior iff at most 5 |
| TamboTools.AnalyzeResume | src/lib/tambo.ts:26-43 | extracted skills are a subsequence of the keyword list; each keyword appears iff the lower-cased resume contains it; the level is the band of the skill count |
| TamboTools.AnalyzeResumeIgnoresCase | src/lib/tambo.ts:35-41 | upper-, lower- and mixed-case spellings of a resume give identical results |
| TamboTools.PrefixKeywordsFound | src/lib/tambo.ts:36 | a listed keyword that is a prefix of a found keyword is found too |
| TamboTools.JavascriptImpliesJava | src/lib/tambo.ts:28-36 | when "javascript" is extracted, "java" is extracted too |
| TamboTools.LookupAsWritten | src/lib/tambo.ts:57-58 | as written: a role whose lower-cased form is in the table gets that entry; one not in the table but naming an inherited object member yields exactly that member, not a list; any other role gets the fallback list |
| TamboTools.ConstructorRoleIsNotAList | src/lib/tambo.ts:57-58 | as written, the role "Constructor" gets the object constructor instead of the fallback |
| TamboTools.GetJobRequirements | src/lib/tambo.ts:46-66 | corrected lookup (see Findings), which only consults the table's own keys: the role is echoed unchanged and looked up case-insensitively; the result is the fallback ["programming", "problem solving", "communication"] exactly when the role is unknown |
| TamboTools.LookupAgreesOffPrototype | src/lib/tambo.ts:57-58 | the corrected lookup agrees with the code as written on every role that does not lower-case to an inherited member name |
| TamboTools.JobRequirementsIgnoreCase | src/lib/tambo.ts:57-58 | a role and its upper-cased spelling get the same skills |
| TamboTools.GetLearningResources | src/lib/tambo.ts:69-82 | always 4 resources, in the order documentation, tutorial, course, project, the last three named after the skill; "4 weeks" iff the level is "beginner", else "2 weeks" |
| LearningPath.CompletedSteps | src/components/generative/LearningPath.tsx:57 | 0 ≤ completed ≤ steps; all steps completed iff the count equals the number of steps; none completed iff the count is 0 |
| LearningPath.Percent | src/components/generative/LearningPath.tsx:58 | the result is 100 · done / total rounded half up, lies in [0, 100], and is 0 when there are no steps |
| LearningPath.Progress | src/components/generative/LearningPath.tsx:56-58 | progress is in [0, 100], and 0 with no steps |
| LearningPath.PercentExtremes | src/components/generative/LearningPath.tsx:58 | done = total > 0 rounds to exactly 100, and done = 0 rounds to exactly 0 |
| LearningPath.ProgressExtremes | src/components/generative/LearningPath.tsx:57-58 | all steps completed gives 100; none completed gives 0 |
| LearningPath.PercentMonotone | src/components/generative/LearningPath.tsx:58 | for a fixed step count, progress never decreases as completed steps increase |
| LearningPath.TypeLabel | src/components/generative/LearningPath.tsx:36-49 | theory, practice, project and assessment get their own labels, and exactly the other values get "Learn" |
| SkillTrends.ChartData | src/components/generative/SkillTrends.tsx:53-63 | no skills give no rows; otherwise there is one row per point of the first skill |
| SkillTrends.Pivot | src/components/generative/SkillTrends.tsx:56-60 | the `forEach` over the skills never removes a key the row already has; its keys and last-writer values are stated by PivotKeys and PivotLastWins |
| SkillTrends.ChartRow | src/components/generative/SkillTrends.tsx:55-61 | every row has a `month` key; ChartRowContents states its other keys and values |
| SkillTrends.ContributesSplit | src/components/generative/SkillTrends.tsx:56-59 | a name contributes to a row iff an earlier skill contributes it or the last skill does |
| SkillTrends.PivotKeys | src/components/generative/SkillTrends.tsx:56-59 | a row's keys are its base keys plus exactly the names of skills with a point at that index; untouched keys keep their values |
| SkillTrends.PivotLastWins | src/components/generative/SkillTrends.tsx:56-59 | on duplicate names, the last skill with a point at that index supplies the value |
| SkillTrends.ChartRowContents | src/components/generative/SkillTrends.tsx:55-59 | row i has `month` plus the contributing names; `month` is the first skill's i-th month unless a skill named "month" overwrites it; each name maps to its last contributor's value |
| SkillTrends.ChartDataRows | src/components/generative/SkillTrends.tsx:54 | row i of the chart data is the pivot for month index i |
| SkillTrends.ShortSeriesContributeNothing | src/components/generative/SkillTrends.tsx:57 | a skill whose series is too short for an index adds no key to that row |
| SkillTrends.ColorAt | src/components/generative/SkillTrends.tsx:123 | the colour of position k, used for both the line and the legend dot (line 145), is a palette colour |
| SkillTrends.ColorsCycle | src/components/generative/SkillTrends.tsx:41 | colours repeat every 5 positions, and any 5 consecutive positions get distinct colours |
| SkillTrends.GrowthPrefix | src/components/generative/SkillTrends.tsx:157 | "+" appears iff the growth rate is > 0 |
| SkillTrends.TrendStyleOf | src/components/generative/SkillTrends.tsx:65-74 | rising gets the up icon, falling the down icon, and every other value the flat icon |
| SkillTrends.TrendColor | src/components/generative/SkillTrends.tsx:76-85 | green iff rising, red iff falling, neutral exactly otherwise |
| SkillGapCard.LevelLabel | src/components/generative/SkillGapCard.tsx:57-59 | keeps the length and every character after the first, upper-cases the first, and maps "" to "" |
| SkillGapCard.LevelLabelIdempotent | src/components/generative/SkillGapCard.tsx:58 | capitalising twice is the same as capitalising once |
| SkillGapCard.LevelLabelsOfEnums | src/components/generative/SkillGapCard.tsx:57-59 | the schema's level enums (lines 10-15) are labelled None, Beginner, Intermediate, Advanced and Expert |
| SkillGapCard.PriorityConfigFor | src/components/generative/SkillGapCard.tsx:34-55 | "high" and "medium" each get their own config, and exactly the other values, "low" included, get the default |
| SkillGapCard.EffectivePriority | src/components/generative/SkillGapCard.tsx:82-88 | a missing or empty priority becomes "medium"; any other value is kept |
| SkillGapCard.FalsyPriorityIsMedium | src/components/generative/SkillGapCard.tsx:82-88 | a missing or empty priority selects the medium config; "low" selects the default |
| SkillGapCard.ResourceIconFor | src/components/generative/SkillGapCard.tsx:61-76 | the default icon is chosen exactly for values outside the five resource types |
| SkillGapCard.ResourceIconsDistinct | src/components/generative/SkillGapCard.tsx:61-76 | the five resource types map to five distinct icons, none of them the default |
| BeamColour.HexToRgbA | src/components/ui/beams-background.tsx:65-76 | every channel is in [0, 255]; alpha is passed through; rejected input gives 255, 255, 255 |
| BeamColour.Accepted | src/components/ui/beams-background.tsx:67 | the regex: `#` then exactly three or six hex digits of either case; PaletteAccepted and CaseInsensitive state it for the palette and for both cases |
| BeamColour.Expand | src/components/ui/beams-background.tsx:68-71 | a three-digit form doubles each digit in place (position k holds digit k / 2); a six-digit form is unchanged; hex digits stay hex digits |
| BeamColour.HexValue | src/components/ui/beams-background.tsx:72 | the `'0x' + digits` number, read left to right; HexValueOfSix shows that six digits are three base-256 digit pairs |
| BeamColour.HexValueOfSix | src/components/ui/beams-background.tsx:72 | six hex digits read as one number are their three digit pairs in base 256 |
| BeamColour.Base256Digits | src/components/ui/beams-background.tsx:73 | shifting and masking recover the three base-256 digits |
| BeamColour.SixDigitChannels | src/components/ui/beams-background.tsx:72-73 | for six digits, r, g and b are the values of digit pairs 1-2, 3-4 and 5-6 |
| BeamColour.ShortFormExpands | src/components/ui/beams-background.tsx:68-71 | #xyz gives the same channels as #xxyyzz |
| BeamColour.LowerDigit | src/components/ui/beams-background.tsx:67 | a hex digit lower-cases to a hex digit with the same value |
| BeamColour.HexValueIgnoresCase | src/components/ui/beams-background.tsx:72 | digit strings that differ only in letter case have the same value |
| BeamColour.CaseInsensitive | src/components/ui/beams-background.tsx:67-73 | upper- and lower-case spellings are accepted alike and give identical channels |
| BeamColour.ParsesToHex | src/components/ui/beams-background.tsx:65-73 | parsing the six-digit spelling of any channels returns those channels |
| BeamColour.PaletteAccepted | src/components/ui/beams-background.tsx:41 | every beam palette colour is accepted, and "#00ffff" gives (0, 255, 255) |
| ThemeContext.Initial | src/context/ThemeContext.tsx:15 | the theme is "dark" before any saved value is read |
| ThemeContext.ApplyTheme | src/context/ThemeContext.tsx:27-36 | the root ends with exactly one of dark and light, dark iff the theme is "dark", and every other class unchanged |
| ThemeContext.Mount | src/context/ThemeContext.tsx:18-25 | a non-empty saved value is adopted unvalidated and applied; otherwise the theme and the root are unchanged |
| ThemeContext.Toggled | src/context/ThemeContext.tsx:39 | "dark" becomes "light", and every other value becomes "dark" |
| ThemeContext.Toggle | src/context/ThemeContext.tsx:38-43 | after a toggle, the persisted value equals the new theme, and the root shows the new theme |
| ThemeContext.ToggleTwiceRestores | src/context/ThemeContext.tsx:38-43 | toggling twice from "dark" or "light" restores the theme |
| ThemeContext.UnvalidatedSavedTheme | src/context/ThemeContext.tsx:20-24 | a saved "blue" becomes the theme and applies the light classes; two toggles then give "light", not "blue" |
| ThemeContext.MountedRootMatchesSavedTheme | src/context/ThemeContext.tsx:18-36 | after mounting with a saved value, the root's dark and light classes match the theme |

## Findings

| source | as written | input that shows it | evidently intended | confidence | as-written member | corrected member |
|---|---|---|---|---|---|---|
| src/lib/questStore.ts:33 | `getQuests` returns the `DEFAULT_QUESTS` array itself for an empty or corrupt slot; `completeQuest` then sets `completed` on that array's record in place (line 51), and `resetQuests` persists the changed array (line 66) | empty storage: `completeQuest("job")`, then `resetQuests()` | reset restores four incomplete quests and a total of 0 | high; not executed | QuestStore.ResetAfterFreshCompletionKeepsJob | QuestStore.ResetRestoresDefaults |
| src/lib/tambo.ts:58 | `roleRequirements[roleLower]` is indexed on a plain object literal, so a lower-cased role naming an inherited member ("constructor", "__proto__") yields that truthy member instead of falling back | `getJobRequirements({targetRole: "Constructor"})` | unknown roles get ["programming", "problem solving", "communication"] | high; not executed | TamboTools.ConstructorRoleIsNotAList | TamboTools.GetJobRequirements |

For the ledger, both behaviours are functions of the same `QuestStore.CompleteQuestWith`. `Shared` is the code as written and `Copied` is the corrected ledger. The rest of the model uses the as-written ledger.

## Left out

- The API proxy route (`src/app/api/tambo/[...path]/route.ts`): network forwarding and stream passthrough. It is I/O with no modellable logic here.
- Canvas and WebGL backgrounds, and the `Beam` constructor, update and draw loop. They are float physics, `Math.random` and animation frames.
- JSON encoding and parsing, and `CustomEvent` dispatch. The slot holds an already parsed list or is corrupt, and events are a log. A slot that parses to something other than a list of quest records is not modelled.
- Concurrent tabs writing the same slot.
- The random `yearsOfExperience` of `analyzeResume`.
- Unicode case mapping. Only ASCII letters change case.
- Float behaviour. The widget's progress uses exact `real` division. `Math.round` in `LearningPath.tsx` is exact rounding half up. Match scores and growth rates are `real`.
- Number-to-text formatting: the "XP to next" text, the `rgba(...)` string built by `hexToRgbA`, and the percentage and growth-rate labels. The model keeps the numbers.
- JSX, icons and CSS. Icons are enum values rather than components or emoji, and classes are plain strings.
- The `Array.isArray` and `skill.data &&` fallbacks. A non-array or missing list behaves as the empty sequence, and that sequence is the input the model takes.
- The other parts of `tambo.ts` (component and tool registration, zod schemas), apart from the output-schema enums they fix.
- A skill named `__proto__` in `SkillTrends.tsx`. Assigning a number to that key does not create an own key, and this is not modelled.
- `if (!mounted) return null` and `useTheme` outside a provider. `Toggle` is defined on every state, although the provider only exposes it after mounting.
- JobMatchCard.Mount: stated for the as-written ledger only. The corrected ledger satisfies the same idempotence through QuestStore.CompleteQuestIdempotent, which covers both modes.

=== FILE: ascii.dfy ===
/** ASCII case mapping and substring search, the models of JavaScript's
    `toLowerCase`, `toUpperCase` and `String.prototype.includes` used
    throughout the model. Case mapping is restricted to the 26 ASCII
    letters. */
module Ascii {

  predicate IsUpper(c: char) { 'A' <= c <= 'Z' }

  predicate IsLower(c: char) { 'a' <= c <= 'z' }

  function LowerChar(c: char): (r: char)
    ensures !IsUpper(r)
    ensures IsUpper(c) ==> IsLower(r) && r as int == c as int + 32
    ensures !IsUpper(c) ==> r == c
  {
    if IsUpper(c) then (c as int + 32) as char else c
  }

  function UpperChar(c: char): (r: char)
    ensures !IsLower(r)
    ensures IsLower(c) ==> IsUpper(r) && r as int == c as int - 32
    ensures !IsLower(c) ==> r == c
  {
    if IsLower(c) then (c as int - 32) as char else c
  }

  /** Lower-casing an upper-cased character gives the lower-cased character:
      both spellings of a letter meet in the same lower-case form. */
  lemma LowerOfUpper(c: char)
    ensures LowerChar(UpperChar(c)) == LowerChar(c)
  {
  }

  function ToLower(s: string): (r: string)
    ensures |r| == |s|
    ensures forall i :: 0 <= i < |s| ==> r[i] == LowerChar(s[i])
  {
    seq(|s|, i requires 0 <= i < |s| => LowerChar(s[i]))
  }

  function ToUpper(s: string): (r: string)
    ensures |r| == |s|
    ensures forall i :: 0 <= i < |s| ==> r[i] == UpperChar(s[i])
  {
    seq(|s|, i requires 0 <= i < |s| => UpperChar(s[i]))
  }

  /** Lower-casing is idempotent. */
  lemma ToLowerIdempotent(s: string)
    ensures ToLower(ToLower(s)) == ToLower(s)
  {
  }

  /** A string and its upper-cased spelling lower-case to the same text. */
  lemma ToLowerOfToUpper(s: string)
    ensures ToLower(ToUpper(s)) == ToLower(s)
  {
    forall i | 0 <= i < |s|
      ensures ToLower(ToUpper(s))[i] == ToLower(s)[i]
    {
      LowerOfUpper(s[i]);
    }
  }

  /** `needle` occurs in `hay` starting at index `i`. */
  predicate OccursAt(needle: string, hay: string, i: int)
  {
    0 <= i && i + |needle| <= |hay| && hay[i..i + |needle|] == needle
  }

  /** `hay.includes(needle)`, searched left to right. */
  function Includes(hay: string, needle: string): (r: bool)
    ensures r <==> exists i :: OccursAt(needle, hay, i)
    decreases |hay|
  {
    if |needle| <= |hay| && hay[..|needle|] == needle then
      assert OccursAt(needle, hay, 0);
      true
    else if |hay| <= |needle| then
      assert forall i :: !OccursAt(needle, hay, i) by {
        forall i | OccursAt(needle, hay, i) ensures false {
        }
      }
      false
    else
      var rest := Includes(hay[1..], needle);
      assert forall i :: OccursAt(needle, hay[1..], i) <==> OccursAt(needle, hay, i + 1) by {
        forall i ensures OccursAt(needle, hay[1..], i) <==> OccursAt(needle, hay, i + 1) {
          if 0 <= i && i + |needle| <= |hay| - 1 {
            assert hay[1..][i..i + |needle|] == hay[i + 1..i + 1 + |needle|];
          }
        }
      }
      assert rest ==> exists i :: OccursAt(needle, hay, i) by {
        if rest {
          var i :| OccursAt(needle, hay[1..], i);
          assert OccursAt(needle, hay, i + 1);
        }
      }
      assert (exists i :: OccursAt(needle, hay, i)) ==> rest by {
        if exists i :: OccursAt(needle, hay, i) {
          var i :| OccursAt(needle, hay, i);
          assert i != 0;
          assert OccursAt(needle, hay[1..], i - 1);
        }
      }
      rest
  }

  /** Every prefix of an included string is included too: substring
      containment is closed under taking prefixes of the needle. */
  lemma IncludesPrefix(hay: string, needle: string, prefix: string)
    requires prefix <= needle
    requires Includes(hay, needle)
    ensures Includes(hay, prefix)
  {
    var i :| OccursAt(needle, hay, i);
    assert hay[i..i + |prefix|] == needle[..|prefix|];
    assert OccursAt(prefix, hay, i);
  }
}

=== FILE: beam_colour.dfy ===
/** `Beam.hexToRgbA` of `beams-background.tsx`: a `#rgb` or `#rrggbb`
    colour turned into red, green and blue channels, white when the text is
    not such a colour. The bit operations `(c >> 16) & 255`, `(c >> 8) & 255`
    and `c & 255` act on a non-negative value below 2^24, where they are
    division by a power of two followed by the remainder modulo 256. */
module BeamColour {
  import opened Ascii

  predicate IsHexDigit(c: char) {
    '0' <= c <= '9' || 'a' <= c <= 'f' || 'A' <= c <= 'F'
  }

  function DigitValue(c: char): (v: nat)
    requires IsHexDigit(c)
    ensures v < 16
  {
    if '0' <= c <= '9' then c as int - '0' as int
    else if 'a' <= c <= 'f' then c as int - 'a' as int + 10
    else c as int - 'A' as int + 10
  }

  predicate AllHex(s: string) {
    forall i :: 0 <= i < |s| ==> IsHexDigit(s[i])
  }

  /** The test `/^#([A-Fa-f0-9]{3}){1,2}$/`: a `#` and then three or six
      hexadecimal digits, nothing else. */
  predicate Accepted(hex: string) {
    (|hex| == 4 || |hex| == 7) && hex[0] == '#' && AllHex(hex[1..])
  }

  /** Doubles every digit of a three-digit form; six digits stay as they are. */
  function Expand(ds: string): (r: string)
    requires |ds| == 3 || |ds| == 6
    ensures |r| == 6
    ensures |ds| == 6 ==> r == ds
    ensures |ds| == 3 ==> forall k :: 0 <= k < 6 ==> r[k] == ds[k / 2]
    ensures AllHex(ds) ==> AllHex(r)
  {
    if |ds| == 3 then [ds[0], ds[0], ds[1], ds[1], ds[2], ds[2]] else ds
  }

  /** The number `'0x' + digits` denotes, read left to right. */
  function HexValue(ds: string): nat
    requires AllHex(ds)
  {
    if |ds| == 0 then 0 else HexValue(ds[..|ds| - 1]) * 16 + DigitValue(ds[|ds| - 1])
  }

  datatype Rgba = Rgba(r: int, g: int, b: int, alpha: real)

  const White: (int, int, int) := (255, 255, 255)

  /** `hexToRgbA`. */
  function HexToRgbA(hex: string, alpha: real): (c: Rgba)
    ensures c.alpha == alpha
    ensures 0 <= c.r < 256 && 0 <= c.g < 256 && 0 <= c.b < 256
    ensures !Accepted(hex) ==> (c.r, c.g, c.b) == White
  {
    if Accepted(hex) then
      var ds := Expand(hex[1..]);
      var v := HexValue(ds);
      Rgba((v / 65536) % 256, (v / 256) % 256, v % 256, alpha)
    else
      Rgba(255, 255, 255, alpha)
  }

  /** The value of the two-digit group starting at `k`. */
  function Pair(ds: string, k: nat): nat
    requires k + 1 < |ds| && AllHex(ds)
  {
    16 * DigitValue(ds[k]) + DigitValue(ds[k + 1])
  }

  /** Six digits read as one number are their three pairs in base 256. */
  lemma HexValueOfSix(ds: string)
    requires |ds| == 6 && AllHex(ds)
    ensures HexValue(ds) == Pair(ds, 0) * 65536 + Pair(ds, 2) * 256 + Pair(ds, 4)
  {
    var d := seq(6, i requires 0 <= i < 6 => DigitValue(ds[i]));
    assert ds[..5][..4] == ds[..4];
    assert ds[..4][..3] == ds[..3];
    assert ds[..3][..2] == ds[..2];
    assert ds[..2][..1] == ds[..1];
    assert ds[..1][..0] == ds[..0];
    assert HexValue(ds[..1]) == d[0];
    assert HexValue(ds[..2]) == d[0] * 16 + d[1];
    assert HexValue(ds[..3]) == (d[0] * 16 + d[1]) * 16 + d[2];
    assert HexValue(ds[..4]) == ((d[0] * 16 + d[1]) * 16 + d[2]) * 16 + d[3];
    assert HexValue(ds[..5]) == (((d[0] * 16 + d[1]) * 16 + d[2]) * 16 + d[3]) * 16 + d[4];
    assert ds[..6] == ds;
    assert HexValue(ds) == ((((d[0] * 16 + d[1]) * 16 + d[2]) * 16 + d[3]) * 16 + d[4]) * 16 + d[5];
  }

  /** Base-256 digits are recovered by division and remainder. */
  lemma Base256Digits(x: nat, y: nat, z: nat)
    requires x < 256 && y < 256 && z < 256
    ensures ((x * 65536 + y * 256 + z) / 65536) % 256 == x
    ensures ((x * 65536 + y * 256 + z) / 256) % 256 == y
    ensures (x * 65536 + y * 256 + z) % 256 == z
  {
    var v := x * 65536 + y * 256 + z;
    assert v == (x * 256 + y) * 256 + z;
    assert v / 256 == x * 256 + y;
    assert v / 65536 == x by {
      assert v == x * 65536 + (y * 256 + z);
    }
  }

  /** For six digits the channels are the values of digit pairs 1-2, 3-4
      and 5-6. */
  lemma SixDigitChannels(hex: string, alpha: real)
    requires Accepted(hex) && |hex| == 7
    ensures var c := HexToRgbA(hex, alpha);
      c.r == Pair(hex[1..], 0) && c.g == Pair(hex[1..], 2) && c.b == Pair(hex[1..], 4)
  {
    HexValueOfSix(hex[1..]);
    Base256Digits(Pair(hex[1..], 0), Pair(hex[1..], 2), Pair(hex[1..], 4));
  }

  /** The short form `#xyz` gives the same channels as `#xxyyzz`. */
  lemma ShortFormExpands(x: char, y: char, z: char, alpha: real)
    requires IsHexDigit(x) && IsHexDigit(y) && IsHexDigit(z)
    ensures HexToRgbA(['#', x, y, z], alpha) == HexToRgbA(['#', x, x, y, y, z, z], alpha)
  {
    assert ['#', x, y, z][1..] == [x, y, z];
    assert ['#', x, x, y, y, z, z][1..] == [x, x, y, y, z, z];
  }

  /** Lower-casing keeps a hex digit a hex digit of the same value. */
  lemma LowerDigit(c: char)
    requires IsHexDigit(c)
    ensures IsHexDigit(LowerChar(c)) && DigitValue(LowerChar(c)) == DigitValue(c)
  {
  }

  /** Digit strings that agree up to letter case have the same value. */
  lemma {:induction false} HexValueIgnoresCase(ds: string)
    requires AllHex(ds)
    ensures AllHex(ToLower(ds)) && HexValue(ToLower(ds)) == HexValue(ds)
    decreases |ds|
  {
    forall i | 0 <= i < |ds| ensures IsHexDigit(ToLower(ds)[i]) {
      LowerDigit(ds[i]);
    }
    if |ds| > 0 {
      var n := |ds| - 1;
      assert ToLower(ds)[..n] == ToLower(ds[..n]);
      HexValueIgnoresCase(ds[..n]);
      LowerDigit(ds[n]);
    }
  }

  /** Upper- and lower-case spellings are accepted alike and give the same
      channels. */
  lemma CaseInsensitive(hex: string, alpha: real)
    ensures Accepted(ToLower(hex)) <==> Accepted(hex)
    ensures HexToRgbA(ToLower(hex), alpha) == HexToRgbA(hex, alpha)
  {
    var lower := ToLower(hex);
    if |hex| == 4 || |hex| == 7 {
      assert lower[1..] == ToLower(hex[1..]);
      forall i | 1 <= i < |hex| ensures IsHexDigit(lower[i]) <==> IsHexDigit(hex[i]) {
        if IsHexDigit(hex[i]) { LowerDigit(hex[i]); }
      }
      assert AllHex(lower[1..]) <==> AllHex(hex[1..]) by {
        assert forall i :: 0 <= i < |hex| - 1 ==> lower[1..][i] == lower[i + 1] && hex[1..][i] == hex[i + 1];
      }
      if Accepted(hex) {
        var ds := hex[1..];
        assert Expand(lower[1..]) == ToLower(Expand(ds));
        HexValueIgnoresCase(Expand(ds));
      }
    }
  }

  /** The digit character of a value below 16, in lower case. */
  function HexChar(v: nat): (c: char)
    requires v < 16
    ensures IsHexDigit(c) && DigitValue(c) == v
  {
    "0123456789abcdef"[v]
  }

  /** The six-digit lower-case spelling of three channels. */
  function ToHex(r: nat, g: nat, b: nat): (s: string)
    requires r < 256 && g < 256 && b < 256
    ensures |s| == 7 && Accepted(s)
  {
    ['#', HexChar(r / 16), HexChar(r % 16), HexChar(g / 16), HexChar(g % 16), HexChar(b / 16), HexChar(b % 16)]
  }

  /** Parsing the spelling of any three channels gives them back. */
  lemma ParsesToHex(r: nat, g: nat, b: nat, alpha: real)
    requires r < 256 && g < 256 && b < 256
    ensures HexToRgbA(ToHex(r, g, b), alpha) == Rgba(r, g, b, alpha)
  {
    var s := ToHex(r, g, b);
    SixDigitChannels(s, alpha);
    assert Pair(s[1..], 0) == r && Pair(s[1..], 2) == g && Pair(s[1..], 4) == b;
  }

  /** The beam palette: cyan, white, purple and green. */
  const Palette: seq<string> := ["#ffffff", "#00ffff", "#bf00ff", "#39ff14", "#ffffff"]

  /** Every palette colour is accepted; cyan is (0, 255, 255). */
  lemma PaletteAccepted(alpha: real)
    ensures forall k :: 0 <= k < |Palette| ==> Accepted(Palette[k])
    ensures HexToRgbA("#00ffff", alpha) == Rgba(0, 255, 255, alpha)
  {
    SixDigitChannels("#00ffff", alpha);
  }
}

=== FILE: job_match_card.dfy ===
/** The match banding of `JobMatchCard.tsx` and the quest it completes when
    it mounts. */
module JobMatchCard {
  import QuestStore

  /** The `matchScore` prop as received: missing (so the parameter default
      applies), a number, or some other value. */
  datatype ScoreProp = Missing | Number(value: real) | NotNumber

  /** The three score bands the card distinguishes. */
  datatype Band = Excellent | Good | NeedsWork

  /** The colour classes of each band. */
  const GreenClasses := "text-green-400 border-green-400/50 bg-green-400/10"
  const YellowClasses := "text-yellow-400 border-yellow-400/50 bg-yellow-400/10"
  const RedClasses := "text-red-400 border-red-400/50 bg-red-400/10"

  /** `safeMatchScore`: the destructuring default of 75 when the prop is
      missing, the number itself, and 0 for anything that is not a number. */
  function SafeMatchScore(p: ScoreProp): (r: real)
    ensures p.Number? ==> r == p.value
    ensures p.NotNumber? ==> r == 0.0
    ensures p.Missing? ==> r == 75.0
  {
    match p
    case Missing => 75.0
    case Number(v) => v
    case NotNumber => 0.0
  }

  /** The band a score falls in. */
  function BandOf(score: real): Band {
    if score >= 80.0 then Excellent else if score >= 60.0 then Good else NeedsWork
  }

  /** `getMatchColor`. */
  function MatchColor(score: real): (r: string)
    ensures r in {GreenClasses, YellowClasses, RedClasses}
    ensures r == GreenClasses <==> score >= 80.0
    ensures r == RedClasses <==> score < 60.0
  {
    if score >= 80.0 then GreenClasses
    else if score >= 60.0 then YellowClasses
    else RedClasses
  }

  /** `getMatchLabel`. */
  function MatchLabel(score: real): (r: string)
    ensures r == "Excellent Match" <==> score >= 80.0
    ensures r == "Good Match" <==> 60.0 <= score < 80.0
    ensures r == "Needs Work" <==> score < 60.0
  {
    if score >= 80.0 then "Excellent Match"
    else if score >= 60.0 then "Good Match"
    else "Needs Work"
  }

  /** Whether the star next to the title is shown. */
  function ShowsStar(score: real): (shown: bool)
    ensures shown <==> MatchLabel(score) == "Excellent Match"
  {
    score >= 80.0
  }

  /** Reads the band back from the colour classes. */
  function ColorBand(c: string): Band {
    if c == GreenClasses then Excellent else if c == YellowClasses then Good else NeedsWork
  }

  /** Reads the band back from the label. */
  function LabelBand(l: string): Band {
    if l == "Excellent Match" then Excellent else if l == "Good Match" then Good else NeedsWork
  }

  /** The badge colour and the status label always name the same band, the
      band of the score. */
  lemma ColorAndLabelAgree(score: real)
    ensures ColorBand(MatchColor(score)) == LabelBand(MatchLabel(score)) == BandOf(score)
  {
  }

  /** The star is shown exactly when the label reads "Excellent Match". */
  lemma StarIffExcellent(score: real)
    ensures ShowsStar(score) <==> MatchLabel(score) == "Excellent Match"
  {
  }

  /** A matchScore that is not a number is scored 0, labelled "Needs Work",
      coloured red, and earns no star. */
  lemma NonNumericScoreNeedsWork()
    ensures MatchLabel(SafeMatchScore(NotNumber)) == "Needs Work"
    ensures MatchColor(SafeMatchScore(NotNumber)) == RedClasses
    ensures !ShowsStar(SafeMatchScore(NotNumber))
  {
  }

  /** The mount effect: `completeQuest("job")`. */
  function Mount(s: QuestStore.Store): (t: QuestStore.Store)
    ensures |s.events| <= |t.events| <= |s.events| + 1
  {
    QuestStore.CompleteQuest(s, QuestStore.JobQuest)
  }

  /** `n` successive mounts of job cards. */
  function MountTimes(s: QuestStore.Store, n: nat): QuestStore.Store
    decreases n
  {
    if n == 0 then s else MountTimes(Mount(s), n - 1)
  }

  /** Any positive number of mounts has the effect of exactly one: the job
      quest is completed at most once and at most one event is broadcast. */
  lemma {:induction false} MountsActOnce(s: QuestStore.Store, n: nat)
    requires n >= 1
    ensures MountTimes(s, n) == Mount(s)
    ensures |MountTimes(s, n).events| <= |s.events| + 1
    decreases n
  {
    if n > 1 {
      MountsActOnce(Mount(s), n - 1);
      QuestStore.CompleteQuestIdempotent(QuestStore.Shared, s, QuestStore.JobQuest);
    }
  }

  /** On a fresh store, any positive number of mounts leaves a total of
      exactly the job's 300 XP. */
  lemma FreshMountsAwardJobOnce(n: nat)
    requires n >= 1
    ensures QuestStore.TotalXP(MountTimes(QuestStore.Fresh, n)) == 300
  {
    MountsActOnce(QuestStore.Fresh, n);
    QuestStore.FreshCompleteJob();
  }
}

=== FILE: learning_path.dfy ===
/** The completion figures and step-type labels of `LearningPath.tsx`.
    `Math.round` of the percentage is computed exactly: rounding half up of
    the rational 100 * completed / total. */
module LearningPath {
  import opened Seqs

  datatype Step = Step(title: string, kind: string, completed: bool)

  /** `completedSteps`: the number of completed steps. */
  function CompletedSteps(steps: seq<Step>): (n: nat)
    ensures n <= |steps|
    ensures n == |steps| <==> forall j :: 0 <= j < |steps| ==> steps[j].completed
    ensures n == 0 <==> forall j :: 0 <= j < |steps| ==> !steps[j].completed
  {
    Count(steps, (s: Step) => s.completed)
  }

  /** `Math.round(done / total * 100)`, or 0 when there are no steps:
      floor(100 * done / total + 1/2), computed on integers. */
  function Percent(done: nat, total: nat): (p: nat)
    requires done <= total
    ensures p <= 100
    ensures total == 0 ==> p == 0
    ensures total > 0 ==> 2 * total * p <= 200 * done + total < 2 * total * (p + 1)
  {
    if total == 0 then 0
    else
      var p := (200 * done + total) / (2 * total);
      assert 200 * done + total < 2 * total * 101;
      p
  }

  /** `progress`. */
  function Progress(steps: seq<Step>): (p: nat)
    ensures p <= 100
    ensures |steps| == 0 ==> p == 0
  {
    Percent(CompletedSteps(steps), |steps|)
  }

  /** The rounded percentage of all of at least one step is 100, and of
      none is 0. */
  lemma PercentExtremes(total: nat)
    ensures total > 0 ==> Percent(total, total) == 100
    ensures Percent(0, total) == 0
  {
    if total > 0 {
      var k := 2 * total;
      var p := Percent(total, total);
      MulLessCancel(k, p, 101);
      MulLessCancel(k, 100, p + 1);
      MulLessCancel(k, Percent(0, total), 1);
    }
  }

  /** Every step completed reads 100%, and no step completed reads 0%. */
  lemma ProgressExtremes(steps: seq<Step>)
    requires |steps| > 0
    ensures (forall j :: 0 <= j < |steps| ==> steps[j].completed) ==> Progress(steps) == 100
    ensures (forall j :: 0 <= j < |steps| ==> !steps[j].completed) ==> Progress(steps) == 0
  {
    PercentExtremes(|steps|);
  }

  /** For a fixed number of steps, more completed steps never read lower. */
  lemma PercentMonotone(a: nat, b: nat, total: nat)
    requires a <= b <= total
    ensures Percent(a, total) <= Percent(b, total)
  {
    if total > 0 {
      var pa, pb := Percent(a, total), Percent(b, total);
      assert 2 * total * pa < 2 * total * (pb + 1);
      MulLessCancel(2 * total, pa, pb + 1);
    }
  }

  /** Cancelling a positive factor from a strict product inequality. */
  lemma MulLessCancel(k: nat, x: nat, y: nat)
    requires k > 0 && k * x < k * y
    ensures x < y
  {
  }

  /** The label half of `getTypeConfig`. */
  function TypeLabel(kind: string): (name: string)
    ensures kind == "theory" <==> name == "Theory"
    ensures kind == "practice" <==> name == "Practice"
    ensures kind == "project" <==> name == "Project"
    ensures kind == "assessment" <==> name == "Assessment"
    ensures kind !in {"theory", "practice", "project", "assessment"} <==> name == "Learn"
  {
    match kind
    case "theory" => "Theory"
    case "practice" => "Practice"
    case "project" => "Project"
    case "assessment" => "Assessment"
    case _ => "Learn"
  }
}

=== FILE: options.dfy ===
/** The optional-value datatype shared by the modules of this model. */
module Options {

  /** A value that may be missing: JavaScript's `undefined`, a failed
      `find`, or a map lookup that has no entry. */
  datatype Option<+T> = None | Some(value: T)
}

=== FILE: quest_store.dfy ===
/** The quest ledger of `src/lib/questStore.ts`: four one-shot quests with
    XP rewards, persisted in one local-storage slot, with completion and
    reset broadcast as window events.

    The browser is abstracted into a `Store` value threaded through every
    operation: whether a window exists at all, the storage slot (empty,
    holding a parsed quest list, or holding text that does not parse), the
    module-level `DEFAULT_QUESTS` array, and the log of dispatched events.

    `DEFAULT_QUESTS` is state, not a constant: `getQuests` hands out that
    array itself when the slot is empty or corrupt, and `completeQuest` then
    sets `completed` on one of its records in place. `Defaults` selects
    between that behaviour (`Shared`, the code as written) and a corrected
    ledger whose reads hand out a copy (`Copied`). */
module QuestStore {
  import opened Options

  /** The `QuestId` union type. */
  datatype QuestId = ResumeQuest | RoadmapQuest | SkillQuest | JobQuest {
    /** The string that identifies the quest in a stored record. */
    function Key(): string {
      match this
      case ResumeQuest => "resume"
      case RoadmapQuest => "roadmap"
      case SkillQuest => "skill"
      case JobQuest => "job"
    }
  }

  /** A quest record. A parsed slot may hold any ids, so `id` is a string. */
  datatype Quest = Quest(id: string, title: string, xp: int, completed: bool)

  /** The initial value of `DEFAULT_QUESTS`. */
  const DefaultQuests: seq<Quest> := [
    Quest("resume", "Upload Resume", 500, false),
    Quest("roadmap", "Generate Roadmap", 800, false),
    Quest("skill", "Analyze Skills", 400, false),
    Quest("job", "Find Jobs", 300, false)
  ]

  /** The `ascend_quests` slot. A missing item and an empty string are both
      falsy in `getQuests`, so both are `Absent`; `Corrupt` is text on which
      `JSON.parse` throws. */
  datatype Slot = Absent | Holding(quests: seq<Quest>) | Corrupt

  /** The `quest-completed` event (detail `{questId, xp}`) and the
      payload-free `quest-reset` event. */
  datatype Event = QuestCompleted(questId: string, xp: int) | QuestReset

  /** Whether records handed out for an empty or corrupt slot are the
      module's default array itself (as written) or a copy of it. */
  datatype Defaults = Shared | Copied

  datatype Store = Store(inBrowser: bool, slot: Slot, defaults: seq<Quest>, events: seq<Event>)

  /** A browser that has never stored quests, with a freshly loaded module. */
  const Fresh: Store := Store(true, Absent, DefaultQuests, [])

  /** What one record adds to the total. */
  function Award(q: Quest): int {
    if q.completed then q.xp else 0
  }

  /** The sum of `xp` over the completed records of `qs`. */
  function CompletedXP(qs: seq<Quest>): int {
    if |qs| == 0 then 0 else Award(qs[0]) + CompletedXP(qs[1..])
  }

  /** The list `getQuests` returns in state `s`. */
  function Visible(s: Store): seq<Quest> {
    if s.inBrowser && s.slot.Holding? then s.slot.quests else s.defaults
  }

  /** The total XP derived from state `s`; nothing else holds a total. */
  function TotalXP(s: Store): int {
    CompletedXP(Visible(s))
  }

  /** What `getQuests` returns, whether that is the module's default array
      itself, and the state after it. */
  datatype Read = Read(quests: seq<Quest>, aliased: bool, after: Store)

  /** `getQuests`. Reading initialises an empty slot with the defaults and
      otherwise writes nothing; a corrupt slot is left as it is. */
  function GetQuests(s: Store): (r: Read)
    ensures r.quests == Visible(s) == Visible(r.after)
    ensures r.aliased <==> r.quests == s.defaults && !(s.inBrowser && s.slot.Holding?)
    ensures r.after.inBrowser == s.inBrowser && r.after.defaults == s.defaults && r.after.events == s.events
    ensures s.inBrowser && s.slot.Absent? ==> r.after.slot == Holding(s.defaults)
    ensures !(s.inBrowser && s.slot.Absent?) ==> r.after == s
  {
    if !s.inBrowser then Read(s.defaults, true, s)
    else match s.slot
      case Absent => Read(s.defaults, true, s.(slot := Holding(s.defaults)))
      case Holding(qs) => Read(qs, false, s)
      case Corrupt => Read(s.defaults, true, s)
  }

  /** `Array.prototype.find` by id: the first record carrying `key`. */
  function Find(qs: seq<Quest>, key: string): (r: Option<nat>)
    ensures r.Some? ==> r.value < |qs| && qs[r.value].id == key
    ensures r.Some? ==> forall j :: 0 <= j < r.value ==> qs[j].id != key
    ensures r.None? <==> forall j :: 0 <= j < |qs| ==> qs[j].id != key
  {
    if |qs| == 0 then None
    else if qs[0].id == key then Some(0)
    else match Find(qs[1..], key)
      case None => None
      case Some(i) => Some(i + 1)
  }

  /** `completeQuest(id)` under the given treatment of the default array.
      Events are only ever appended, and at most one per call. */
  function CompleteQuestWith(mode: Defaults, s: Store, id: QuestId): (t: Store)
    ensures t.inBrowser == s.inBrowser
    ensures !s.inBrowser ==> t == s
    ensures s.events <= t.events
    ensures |s.events| <= |t.events| <= |s.events| + 1
    ensures mode == Copied ==> t.defaults == s.defaults
  {
    if !s.inBrowser then s
    else
      var read := GetQuests(s);
      match Find(read.quests, id.Key())
      case None => read.after
      case Some(i) =>
        var q := read.quests[i];
        if q.completed then read.after
        else
          var list := read.quests[i := q.(completed := true)];
          read.after.(
            slot := Holding(list),
            defaults := if read.aliased && mode == Shared then list else read.after.defaults,
            events := read.after.events + [QuestCompleted(id.Key(), q.xp)])
  }

  /** `completeQuest` as written: a read of an empty or corrupt slot hands
      out the default array, which the completion then mutates. */
  function CompleteQuest(s: Store, id: QuestId): (t: Store)
    ensures s.events <= t.events
    ensures |s.events| <= |t.events| <= |s.events| + 1
    ensures t.defaults == (if s.inBrowser && !s.slot.Holding? then Visible(t) else s.defaults)
  {
    CompleteQuestWith(Shared, s, id)
  }

  /** `completeQuest` corrected so that it never alters the defaults. */
  function CompleteQuestCopying(s: Store, id: QuestId): (t: Store)
    ensures t.defaults == s.defaults
    ensures |s.events| <= |t.events| <= |s.events| + 1
  {
    CompleteQuestWith(Copied, s, id)
  }

  /** `resetQuests`: writes the current value of the default array and
      broadcasts one reset event. Outside a browser it does nothing. */
  function ResetQuests(s: Store): (t: Store)
    ensures s.inBrowser ==> Visible(t) == s.defaults && t.slot == Holding(s.defaults)
    ensures s.inBrowser ==> t.events == s.events + [QuestReset]
    ensures !s.inBrowser ==> t == s
    ensures t.defaults == s.defaults
  {
    if !s.inBrowser then s
    else s.(slot := Holding(s.defaults), events := s.events + [QuestReset])
  }

  /** The `reduce` that both `getTotalXP` and the widget's initial total
      perform: a left-to-right fold adding the xp of each completed record.
      It equals the recursive sum, which is defined from the head. */
  method SumCompletedXP(qs: seq<Quest>) returns (xp: int)
    ensures xp == CompletedXP(qs)
  {
    xp := 0;
    var i := 0;
    while i < |qs|
      invariant 0 <= i <= |qs|
      invariant xp + CompletedXP(qs[i..]) == CompletedXP(qs)
    {
      assert qs[i..][1..] == qs[i + 1..];
      if qs[i].completed {
        xp := xp + qs[i].xp;
      }
      i := i + 1;
    }
  }

  /** `getTotalXP`: reads the list and folds it; the result is the derived
      total and the state is that of the read. */
  method GetTotalXP(s: Store) returns (xp: int, t: Store)
    ensures xp == CompletedXP(Visible(s)) == TotalXP(t)
    ensures t == GetQuests(s).after
  {
    var read := GetQuests(s);
    xp := SumCompletedXP(read.quests);
    t := read.after;
  }

  // ---------------------------------------------------------------------
  // Totals

  /** Completing one incomplete record raises the total by exactly its xp. */
  lemma {:induction false} CompletedXPMark(qs: seq<Quest>, i: nat)
    requires i < |qs| && !qs[i].completed
    ensures CompletedXP(qs[i := qs[i].(completed := true)]) == CompletedXP(qs) + qs[i].xp
    decreases |qs|
  {
    var qs' := qs[i := qs[i].(completed := true)];
    if i == 0 {
      assert qs'[1..] == qs[1..];
    } else {
      assert qs'[1..] == qs[1..][i - 1 := qs[i].(completed := true)];
      CompletedXPMark(qs[1..], i - 1);
    }
  }

  /** A list with no completed record totals zero. */
  lemma {:induction false} NoneCompletedTotalsZero(qs: seq<Quest>)
    requires forall j :: 0 <= j < |qs| ==> !qs[j].completed
    ensures CompletedXP(qs) == 0
    decreases |qs|
  {
    if |qs| > 0 {
      NoneCompletedTotalsZero(qs[1..]);
    }
  }

  /** With non-negative rewards, the total lies between zero and the sum of
      all rewards, and it reaches that sum when every record is completed. */
  lemma {:induction false} CompletedXPBounds(qs: seq<Quest>)
    requires forall j :: 0 <= j < |qs| ==> qs[j].xp >= 0
    ensures 0 <= CompletedXP(qs) <= AllXP(qs)
    ensures (forall j :: 0 <= j < |qs| ==> qs[j].completed) ==> CompletedXP(qs) == AllXP(qs)
    decreases |qs|
  {
    if |qs| > 0 {
      CompletedXPBounds(qs[1..]);
    }
  }

  /** The sum of all rewards, completed or not. */
  function AllXP(qs: seq<Quest>): int {
    if |qs| == 0 then 0 else qs[0].xp + AllXP(qs[1..])
  }

  // ---------------------------------------------------------------------
  // The fresh store

  /** A fresh store reads as the four default quests, all incomplete, and
      the read persists them; the derived total is zero. */
  lemma FreshStoreReadsDefaults()
    ensures GetQuests(Fresh).quests == DefaultQuests
    ensures GetQuests(Fresh).after.slot == Holding(DefaultQuests)
    ensures |Visible(Fresh)| == 4
    ensures forall j :: 0 <= j < 4 ==> !Visible(Fresh)[j].completed
    ensures [Visible(Fresh)[0].xp, Visible(Fresh)[1].xp, Visible(Fresh)[2].xp, Visible(Fresh)[3].xp] == [500, 800, 400, 300]
    ensures TotalXP(Fresh) == 0
  {
    NoneCompletedTotalsZero(DefaultQuests);
  }

  /** Completing `job` on a fresh store broadcasts `{questId: "job", xp: 300}`
      and leaves a total of exactly 300. */
  lemma FreshCompleteJob()
    ensures CompleteQuest(Fresh, JobQuest).events == [QuestCompleted("job", 300)]
    ensures TotalXP(CompleteQuest(Fresh, JobQuest)) == 300
  {
    assert Find(DefaultQuests, "job") == Some(3);
    NoneCompletedTotalsZero(DefaultQuests);
    CompletedXPMark(DefaultQuests, 3);
  }

  // ---------------------------------------------------------------------
  // completeQuest

  /** Completing a quest that is found and still open sets exactly that
      record's flag, leaves every other record as it was, persists the new
      list, broadcasts one event with the quest's id and xp, and raises the
      total by that xp. */
  lemma CompleteQuestMarksOne(mode: Defaults, s: Store, id: QuestId, i: nat)
    requires s.inBrowser
    requires Find(Visible(s), id.Key()) == Some(i) && !Visible(s)[i].completed
    ensures var t := CompleteQuestWith(mode, s, id);
      && |Visible(t)| == |Visible(s)|
      && Visible(t)[i] == Visible(s)[i].(completed := true)
      && (forall j :: 0 <= j < |Visible(s)| && j != i ==> Visible(t)[j] == Visible(s)[j])
      && t.slot == Holding(Visible(t))
      && t.events == s.events + [QuestCompleted(id.Key(), Visible(s)[i].xp)]
      && TotalXP(t) == TotalXP(s) + Visible(s)[i].xp
  {
    CompletedXPMark(Visible(s), i);
  }

  /** An id that no stored record carries, and a quest already completed,
      cause no write beyond the read's own initialisation and no event. */
  lemma CompleteQuestNoOp(mode: Defaults, s: Store, id: QuestId)
    requires Find(Visible(s), id.Key()).None? || Visible(s)[Find(Visible(s), id.Key()).value].completed
    ensures CompleteQuestWith(mode, s, id) == GetQuests(s).after
    ensures CompleteQuestWith(mode, s, id).events == s.events
    ensures Visible(CompleteQuestWith(mode, s, id)) == Visible(s)
  {
  }

  /** Completion is idempotent: a second call with the same id changes
      nothing and broadcasts nothing. */
  lemma CompleteQuestIdempotent(mode: Defaults, s: Store, id: QuestId)
    ensures CompleteQuestWith(mode, CompleteQuestWith(mode, s, id), id) == CompleteQuestWith(mode, s, id)
  {
    var t := CompleteQuestWith(mode, s, id);
    if s.inBrowser {
      var qs := Visible(s);
      match Find(qs, id.Key())
      case None =>
      case Some(i) =>
        if !qs[i].completed {
          assert Visible(t) == qs[i := qs[i].(completed := true)];
          assert Find(Visible(t), id.Key()) == Some(i) by {
            FindIgnoresFlags(qs, Visible(t), id.Key());
          }
        }
    }
  }

  /** Two lists with the same ids in the same order find the same record. */
  lemma {:induction false} FindIgnoresFlags(a: seq<Quest>, b: seq<Quest>, key: string)
    requires |a| == |b| && forall j :: 0 <= j < |a| ==> a[j].id == b[j].id
    ensures Find(a, key) == Find(b, key)
    decreases |a|
  {
    if |a| > 0 && a[0].id != key {
      FindIgnoresFlags(a[1..], b[1..], key);
    }
  }

  // ---------------------------------------------------------------------
  // Monotonicity and reset

  /** One call of the ledger: `Load` is `getQuests` or `getTotalXP`, whose
      effect on the state is the same. */
  datatype Op = Load | Complete(id: QuestId) | Reset

  function Step(mode: Defaults, s: Store, op: Op): Store {
    match op
    case Load => GetQuests(s).after
    case Complete(id) => CompleteQuestWith(mode, s, id)
    case Reset => ResetQuests(s)
  }

  function Run(mode: Defaults, s: Store, ops: seq<Op>): Store
    decreases |ops|
  {
    if |ops| == 0 then s else Run(mode, Step(mode, s, ops[0]), ops[1..])
  }

  /** `b` keeps the ids of `a` in order and every completed flag of `a`. */
  predicate Extends(a: seq<Quest>, b: seq<Quest>) {
    && |a| == |b|
    && forall j :: 0 <= j < |a| ==> b[j].id == a[j].id && b[j].xp == a[j].xp && (a[j].completed ==> b[j].completed)
  }

  /** Every call other than a reset keeps each completed flag set. */
  lemma StepExtends(mode: Defaults, s: Store, op: Op)
    requires !op.Reset?
    ensures Extends(Visible(s), Visible(Step(mode, s, op)))
  {
  }

  /** Completion is monotone: across any run without a reset, no completed
      flag is cleared and no record is added, removed or renamed. */
  lemma {:induction false} RunWithoutResetExtends(mode: Defaults, s: Store, ops: seq<Op>)
    requires forall k :: 0 <= k < |ops| ==> !ops[k].Reset?
    ensures Extends(Visible(s), Visible(Run(mode, s, ops)))
    decreases |ops|
  {
    if |ops| > 0 {
      var s1 := Step(mode, s, ops[0]);
      StepExtends(mode, s, ops[0]);
      RunWithoutResetExtends(mode, s1, ops[1..]);
    }
  }

  /** A reset can clear a completed flag: a stored list with `resume` done
      reads as all-open after a reset with pristine defaults. */
  lemma ResetCanClearFlags()
    ensures var s := Store(true, Holding([Quest("resume", "Upload Resume", 500, true)]), DefaultQuests, []);
      Visible(s)[0].completed && !Visible(ResetQuests(s))[0].completed
  {
  }

  /** As written, reset does not restore the defaults: completing `job` on a
      fresh store mutates the default array, and a reset then persists a list
      in which `job` is still completed and the total is still 300. */
  lemma ResetAfterFreshCompletionKeepsJob()
    ensures var s := ResetQuests(CompleteQuest(Fresh, JobQuest));
      && Visible(s)[3].id == "job" && Visible(s)[3].completed
      && s.slot == Holding(DefaultQuests[3 := DefaultQuests[3].(completed := true)])
      && TotalXP(s) == 300
  {
    assert Find(DefaultQuests, "job") == Some(3);
    NoneCompletedTotalsZero(DefaultQuests);
    CompletedXPMark(DefaultQuests, 3);
  }

  /** As written, on an empty or corrupt slot, completing an open quest and
      then resetting persists that quest as completed: the reset writes the
      default array the completion changed, and the total keeps its xp. */
  lemma ResetAfterCompletionKeepsIt(s: Store, id: QuestId, i: nat)
    requires s.inBrowser && !s.slot.Holding?
    requires Find(s.defaults, id.Key()) == Some(i) && !s.defaults[i].completed
    ensures var t := ResetQuests(CompleteQuest(s, id));
      && t.slot == Holding(s.defaults[i := s.defaults[i].(completed := true)])
      && Visible(t)[i].id == id.Key() && Visible(t)[i].completed
      && TotalXP(t) == CompletedXP(s.defaults) + s.defaults[i].xp
  {
    CompletedXPMark(s.defaults, i);
  }

  /** The corrupt-slot instance: the slot stays unreadable, yet after
      completing `job` and resetting, `job` is stored as completed. */
  lemma ResetAfterCorruptCompletionKeepsJob()
    ensures var s := ResetQuests(CompleteQuest(Store(true, Corrupt, DefaultQuests, []), JobQuest));
      && s.slot == Holding(DefaultQuests[3 := DefaultQuests[3].(completed := true)])
      && TotalXP(s) == 300
  {
    assert Find(DefaultQuests, "job") == Some(3);
    ResetAfterCompletionKeepsIt(Store(true, Corrupt, DefaultQuests, []), JobQuest, 3);
    NoneCompletedTotalsZero(DefaultQuests);
  }

  /** The corrected ledger never alters the default array. */
  lemma {:induction false} RunCopyingKeepsDefaults(s: Store, ops: seq<Op>)
    ensures Run(Copied, s, ops).defaults == s.defaults
    decreases |ops|
  {
    if |ops| > 0 {
      RunCopyingKeepsDefaults(Step(Copied, s, ops[0]), ops[1..]);
    }
  }

  /** In the corrected ledger, a reset after any history starting from
      pristine defaults restores the four default quests, all open, with a
      total of zero. */
  lemma ResetRestoresDefaults(s: Store, ops: seq<Op>)
    requires s.defaults == DefaultQuests
    ensures Visible(ResetQuests(Run(Copied, s, ops))) == DefaultQuests
    ensures TotalXP(ResetQuests(Run(Copied, s, ops))) == 0
  {
    RunCopyingKeepsDefaults(s, ops);
    NoneCompletedTotalsZero(DefaultQuests);
  }
}

=== FILE: quest_widget.dfy ===
/** The level and XP arithmetic of the quest badge in `QuestWidget.tsx`.
    The widget keeps its own hard-coded quest list and never reads the
    quest ledger; only the record shape is shared. */
module QuestWidget {
  import opened Options
  import opened Seqs
  import QuestStore

  datatype Level = Level(rank: string, minXP: int)

  /** The `LEVELS` threshold table. */
  const Levels: seq<Level> := [
    Level("Beginner", 0),
    Level("Explorer", 500),
    Level("Achiever", 1500),
    Level("Expert", 3000),
    Level("Master", 5000)
  ]

  /** The widget's own quest list, with `resume` marked completed. */
  const WidgetQuests: seq<QuestStore.Quest> := [
    QuestStore.Quest("resume", "Upload Resume", 500, true),
    QuestStore.Quest("roadmap", "Generate Roadmap", 800, false),
    QuestStore.Quest("skill", "Analyze Skills", 400, false),
    QuestStore.Quest("job", "Find Jobs", 300, false)
  ]

  /** The `findIndex` predicate: level `i` is reached and the next one, if
      any, is not. */
  predicate AtLevel(xp: int, i: int)
    requires 0 <= i < |Levels|
  {
    xp >= Levels[i].minXP && (i == |Levels| - 1 || xp < Levels[i + 1].minXP)
  }

  /** `findIndex` from index `k` on: the first level at or after `k` whose
      predicate holds, or -1. */
  function FindLevelFrom(xp: int, k: nat): (r: int)
    requires k <= |Levels|
    ensures r == -1 || k <= r < |Levels|
    ensures r != -1 ==> AtLevel(xp, r) && forall j :: k <= j < r ==> !AtLevel(xp, j)
    ensures r == -1 ==> forall j :: k <= j < |Levels| ==> !AtLevel(xp, j)
    decreases |Levels| - k
  {
    if k == |Levels| then -1
    else if AtLevel(xp, k) then k
    else FindLevelFrom(xp, k + 1)
  }

  /** `currentLevelIndex`. For every non-negative total exactly one level
      matches, so the index is defined; a negative total matches none. */
  function LevelIndex(xp: int): (r: int)
    ensures xp >= 0 <==> 0 <= r < |Levels|
    ensures xp < 0 ==> r == -1
    ensures xp >= 0 ==> AtLevel(xp, r) && forall j :: 0 <= j < |Levels| && AtLevel(xp, j) ==> j == r
  {
    var r := FindLevelFrom(xp, 0);
    if xp >= 0 then
      var w := LevelOf(xp);
      LevelUnique(xp, w);
      r
    else
      r
  }

  /** A level that a non-negative total reaches, found by thresholds. */
  function LevelOf(xp: int): (i: nat)
    requires xp >= 0
    ensures i < |Levels| && AtLevel(xp, i)
  {
    if xp >= 5000 then 4 else if xp >= 3000 then 3 else if xp >= 1500 then 2 else if xp >= 500 then 1 else 0
  }

  /** At most one level matches any total. */
  lemma LevelUnique(xp: int, i: int)
    requires 0 <= i < |Levels| && AtLevel(xp, i)
    ensures forall j :: 0 <= j < |Levels| && AtLevel(xp, j) ==> j == i
  {
    forall j | 0 <= j < |Levels| && AtLevel(xp, j)
      ensures j == i
    {
    }
  }

  /** A higher total never shows a lower level. */
  lemma LevelMonotone(a: int, b: int)
    requires 0 <= a <= b
    ensures LevelIndex(a) <= LevelIndex(b)
  {
  }

  /** What the badge shows: the rank, the XP still needed for the next level
      (`None` shows "Max"), and the percentage of the way there. */
  datatype Badge = Badge(rank: string, toNext: Option<int>, progress: real)

  /** The badge for a total, or `None` where `currentLevel` would be
      undefined and reading its rank would throw. */
  function BadgeFor(xp: int): (r: Option<Badge>)
    ensures r.Some? <==> xp >= 0
    ensures r.Some? ==> r.value.rank == Levels[LevelIndex(xp)].rank
    ensures r.Some? && r.value.toNext.Some? ==>
      var i := LevelIndex(xp);
      && i + 1 < |Levels|
      && Levels[i].minXP <= xp < Levels[i + 1].minXP
      && r.value.toNext.value == Levels[i + 1].minXP - xp > 0
      && 0.0 <= r.value.progress < 100.0
      && r.value.progress * (Levels[i + 1].minXP - Levels[i].minXP) as real == 100.0 * (xp - Levels[i].minXP) as real
    ensures r.Some? && r.value.toNext.None? <==> xp >= 5000
    ensures r.Some? && r.value.toNext.None? ==> r.value.progress == 100.0 && r.value.rank == "Master"
  {
    var i := LevelIndex(xp);
    if i == -1 then None
    else
      var current := Levels[i];
      if i + 1 < |Levels| then
        var next := Levels[i + 1];
        var progress := ((xp - current.minXP) as real / (next.minXP - current.minXP) as real) * 100.0;
        assert (xp - current.minXP) as real < (next.minXP - current.minXP) as real;
        Some(Badge(current.rank, Some(next.minXP - xp), progress))
      else
        Some(Badge(current.rank, None, 100.0))
  }

  /** Within one level below Master, progress is 0 exactly at the level's
      threshold and never falls as the total grows. */
  lemma BadgeProgressWithinLevel(a: int, b: int)
    requires 0 <= a <= b < 5000 && LevelIndex(a) == LevelIndex(b)
    ensures BadgeFor(a).Some? && BadgeFor(b).Some?
    ensures BadgeFor(a).value.progress <= BadgeFor(b).value.progress
    ensures BadgeFor(a).value.progress == 0.0 <==> a == Levels[LevelIndex(a)].minXP
  {
  }

  /** `completedCount`: the number of completed quests. */
  function CompletedCount(quests: seq<QuestStore.Quest>): (n: nat)
    ensures n <= |quests|
    ensures n == |quests| <==> forall j :: 0 <= j < |quests| ==> quests[j].completed
  {
    Count(quests, (q: QuestStore.Quest) => q.completed)
  }

  /** The hard-coded list totals 500 XP, rank Explorer, 1000 short of the
      next level and 0% of the way there, with 1 of 4 quests complete. */
  lemma WidgetStartsAsExplorer()
    ensures QuestStore.CompletedXP(WidgetQuests) == 500
    ensures BadgeFor(500) == Some(Badge("Explorer", Some(1000), 0.0))
    ensures CompletedCount(WidgetQuests) == 1
  {
    assert LevelIndex(500) == 1 by {
      assert AtLevel(500, 1);
    }
  }
}

=== FILE: seqs.dfy ===
/** Sequence helpers shared by the modules of this model. */
module Seqs {

  /** `xs.filter(keep).length`. */
  function Count<T>(xs: seq<T>, keep: T -> bool): (n: nat)
    ensures n <= |xs|
    ensures n == |xs| <==> forall j :: 0 <= j < |xs| ==> keep(xs[j])
    ensures n == 0 <==> forall j :: 0 <= j < |xs| ==> !keep(xs[j])
  {
    if |xs| == 0 then 0
    else
      var rest := Count(xs[1..], keep);
      assert forall j :: 1 <= j < |xs| ==> xs[j] == xs[1..][j - 1];
      (if keep(xs[0]) then 1 else 0) + rest
  }

  /** Filtering distributes over concatenation: the count of a joined list
      is the sum of the counts of its parts, so every kept element is
      counted once and no other. */
  lemma {:induction false} CountAppend<T>(xs: seq<T>, ys: seq<T>, keep: T -> bool)
    ensures Count(xs + ys, keep) == Count(xs, keep) + Count(ys, keep)
    decreases |xs|
  {
    if |xs| > 0 {
      assert (xs + ys)[1..] == xs[1..] + ys;
      CountAppend(xs[1..], ys, keep);
    } else {
      assert xs + ys == ys;
    }
  }

  /** A single element counts 1 exactly when it is kept. */
  lemma CountSingle<T>(x: T, keep: T -> bool)
    ensures Count([x], keep) == (if keep(x) then 1 else 0)
  {
  }
}

=== FILE: skill_gap_card.dfy ===
/** The label and style selection of `SkillGapCard.tsx`. */
module SkillGapCard {
  import opened Options
  import opened Ascii

  /** `getLevelLabel`: the first character upper-cased, the rest as given. */
  function LevelLabel(level: string): (r: string)
    ensures |r| == |level|
    ensures |level| > 0 ==> r[0] == UpperChar(level[0]) && r[1..] == level[1..]
    ensures level == "" ==> r == ""
  {
    if |level| == 0 then "" else [UpperChar(level[0])] + level[1..]
  }

  /** Capitalising twice is the same as capitalising once. */
  lemma LevelLabelIdempotent(level: string)
    ensures LevelLabel(LevelLabel(level)) == LevelLabel(level)
  {
    if |level| > 0 {
      assert UpperChar(UpperChar(level[0])) == UpperChar(level[0]);
    }
  }

  /** The labels of the schema's level enums. */
  lemma LevelLabelsOfEnums()
    ensures LevelLabel("none") == "None"
    ensures LevelLabel("beginner") == "Beginner"
    ensures LevelLabel("intermediate") == "Intermediate"
    ensures LevelLabel("advanced") == "Advanced"
    ensures LevelLabel("expert") == "Expert"
  {
    assert "intermediate"[1..] == "ntermediate";
  }

  datatype PriorityIcon = AlertTriangle | Clock | CheckCircle

  datatype PriorityConfig = PriorityConfig(color: string, badge: string, icon: PriorityIcon)

  const HighConfig := PriorityConfig("border-primary bg-primary/5", "bg-foreground text-background", AlertTriangle)
  const MediumConfig := PriorityConfig("border-muted-foreground bg-muted-foreground/5", "bg-muted-foreground text-background", Clock)
  const DefaultConfig := PriorityConfig("border-border bg-muted/30", "bg-muted text-foreground", CheckCircle)

  /** `getPriorityConfig`: its own style for "high" and for "medium", the
      default for everything else, "low" included. */
  function PriorityConfigFor(priority: string): (c: PriorityConfig)
    ensures c == HighConfig <==> priority == "high"
    ensures c == MediumConfig <==> priority == "medium"
    ensures c == DefaultConfig <==> priority != "high" && priority != "medium"
  {
    match priority
    case "high" => HighConfig
    case "medium" => MediumConfig
    case _ => DefaultConfig
  }

  /** The priority the card styles by: the prop default "medium" when the
      prop is missing, and `priority || "medium"` when it is the empty
      string. */
  function EffectivePriority(priority: Option<string>): (p: string)
    ensures p != ""
    ensures priority.Some? && priority.value != "" ==> p == priority.value
    ensures priority.None? || priority == Some("") ==> p == "medium"
  {
    match priority
    case None => "medium"
    case Some(v) => if v == "" then "medium" else v
  }

  /** A missing or empty priority is styled as "medium"; "low" gets the
      default style. */
  lemma FalsyPriorityIsMedium()
    ensures PriorityConfigFor(EffectivePriority(None)) == MediumConfig
    ensures PriorityConfigFor(EffectivePriority(Some(""))) == MediumConfig
    ensures PriorityConfigFor(EffectivePriority(Some("low"))) == DefaultConfig
  {
  }

  /** The six icons `getResourceIcon` chooses from: graduation cap, books,
      memo, open book, hammer and wrench, pushpin. */
  datatype ResourceIcon = GraduationCap | Books | Memo | OpenBook | Tools | Pushpin

  /** `getResourceIcon`. */
  function ResourceIconFor(kind: string): (icon: ResourceIcon)
    ensures icon == Pushpin <==> kind !in {"course", "book", "tutorial", "documentation", "project"}
  {
    match kind
    case "course" => GraduationCap
    case "book" => Books
    case "tutorial" => Memo
    case "documentation" => OpenBook
    case "project" => Tools
    case _ => Pushpin
  }

  /** The five resource types get five distinct icons, none of them the
      default. */
  lemma ResourceIconsDistinct(a: string, b: string)
    requires a in {"course", "book", "tutorial", "documentation", "project"}
    requires b in {"course", "book", "tutorial", "documentation", "project"}
    ensures ResourceIconFor(a) != Pushpin
    ensures ResourceIconFor(a) == ResourceIconFor(b) <==> a == b
  {
  }
}

=== FILE: skill_trends.dfy ===
/** The chart pivot and legend styling of `SkillTrends.tsx`: per-skill
    monthly series become one chart row per month of the first skill. */
module SkillTrends {

  datatype DataPoint = DataPoint(month: string, value: real)

  datatype SkillSeries = SkillSeries(name: string, trend: string, growthRate: real, data: seq<DataPoint>)

  /** A chart-row value: the month label or a skill's demand value. */
  datatype Cell = MonthCell(month: string) | ValueCell(value: real)

  type Row = map<string, Cell>

  /** Skill `j` has a data point at month index `i`. */
  predicate HasPoint(skills: seq<SkillSeries>, j: int, i: nat)
    requires 0 <= j < |skills|
  {
    i < |skills[j].data|
  }

  /** Some skill named `key` has a data point at month index `i`. */
  predicate Contributes(skills: seq<SkillSeries>, i: nat, key: string) {
    exists j :: 0 <= j < |skills| && skills[j].name == key && HasPoint(skills, j, i)
  }

  /** Skill `j` is the last one named like it with a point at index `i`. */
  predicate LastContributor(skills: seq<SkillSeries>, i: nat, j: int)
    requires 0 <= j < |skills|
  {
    && HasPoint(skills, j, i)
    && forall j2 :: j < j2 < |skills| && skills[j2].name == skills[j].name ==> !HasPoint(skills, j2, i)
  }

  /** The `forEach` over the skills for month index `i`: each skill with a
      point there assigns its value under its name, later ones overwriting
      earlier ones. */
  function Pivot(skills: seq<SkillSeries>, i: nat, base: Row): (r: Row)
    ensures forall k :: k in base ==> k in r
    decreases |skills|
  {
    if |skills| == 0 then base
    else
      var last := skills[|skills| - 1];
      var p := Pivot(skills[..|skills| - 1], i, base);
      if i < |last.data| then p[last.name := ValueCell(last.data[i].value)] else p
  }

  /** Contribution to a row splits into the skills before the last and the
      last skill. */
  lemma ContributesSplit(skills: seq<SkillSeries>, i: nat, key: string)
    requires |skills| > 0
    ensures Contributes(skills, i, key) <==>
      Contributes(skills[..|skills| - 1], i, key) || (key == skills[|skills| - 1].name && i < |skills[|skills| - 1].data|)
  {
    var init := skills[..|skills| - 1];
    if Contributes(skills, i, key) {
      var j :| 0 <= j < |skills| && skills[j].name == key && HasPoint(skills, j, i);
      if j < |init| {
        assert init[j] == skills[j];
        assert HasPoint(init, j, i);
      }
    }
    if Contributes(init, i, key) {
      var j :| 0 <= j < |init| && init[j].name == key && HasPoint(init, j, i);
      assert init[j] == skills[j];
      assert HasPoint(skills, j, i);
    }
    if key == skills[|skills| - 1].name && i < |skills[|skills| - 1].data| {
      assert HasPoint(skills, |skills| - 1, i);
    }
  }

  /** A pivoted row holds the base keys and exactly the names of the skills
      with a point at index `i`; base keys no skill contributes keep their
      values. */
  lemma {:induction false} PivotKeys(skills: seq<SkillSeries>, i: nat, base: Row, key: string)
    ensures key in Pivot(skills, i, base) <==> key in base || Contributes(skills, i, key)
    ensures key in base && !Contributes(skills, i, key) ==> Pivot(skills, i, base)[key] == base[key]
    decreases |skills|
  {
    if |skills| > 0 {
      PivotKeys(skills[..|skills| - 1], i, base, key);
      ContributesSplit(skills, i, key);
    }
  }

  /** The last skill of a name with a point at index `i` supplies that
      name's value. */
  lemma {:induction false} PivotLastWins(skills: seq<SkillSeries>, i: nat, base: Row, j: nat)
    requires j < |skills| && LastContributor(skills, i, j)
    ensures skills[j].name in Pivot(skills, i, base)
    ensures Pivot(skills, i, base)[skills[j].name] == ValueCell(skills[j].data[i].value)
    decreases |skills|
  {
    var n := |skills| - 1;
    var init := skills[..n];
    if j < n {
      assert init[j] == skills[j];
      assert LastContributor(init, i, j) by {
        forall j2 | j < j2 < |init| && init[j2].name == init[j].name
          ensures !HasPoint(init, j2, i)
        {
          assert init[j2] == skills[j2];
          assert !HasPoint(skills, j2, i);
        }
      }
      PivotLastWins(init, i, base, j);
      assert !HasPoint(skills, n, i) || skills[n].name != skills[j].name;
    }
  }

  /** The row for month index `i`: `month` from the first skill, then the
      pivot of every skill. */
  function ChartRow(skills: seq<SkillSeries>, i: nat): (r: Row)
    requires |skills| > 0 && i < |skills[0].data|
    ensures "month" in r
  {
    Pivot(skills, i, map["month" := MonthCell(skills[0].data[i].month)])
  }

  /** `chartData`: one row per data point of the first skill, or none when
      there are no skills. */
  function ChartData(skills: seq<SkillSeries>): (rows: seq<Row>)
    ensures |skills| == 0 ==> rows == []
    ensures |skills| > 0 ==> |rows| == |skills[0].data|
  {
    if |skills| == 0 then []
    else seq(|skills[0].data|, i requires 0 <= i < |skills[0].data| => ChartRow(skills, i))
  }

  /** What a chart row holds: a `month` key, and exactly the names of the
      skills that have a point at that index. Its month is the first skill's
      month unless a skill named "month" overwrites it; each contributing
      name maps to the value of its last skill of that name. */
  lemma ChartRowContents(skills: seq<SkillSeries>, i: nat)
    requires |skills| > 0 && i < |skills[0].data|
    ensures forall key :: key in ChartRow(skills, i) <==> key == "month" || Contributes(skills, i, key)
    ensures !Contributes(skills, i, "month") ==> ChartRow(skills, i)["month"] == MonthCell(skills[0].data[i].month)
    ensures forall j :: 0 <= j < |skills| && LastContributor(skills, i, j) ==>
      skills[j].name in ChartRow(skills, i) && ChartRow(skills, i)[skills[j].name] == ValueCell(skills[j].data[i].value)
  {
    var base := map["month" := MonthCell(skills[0].data[i].month)];
    forall key ensures key in ChartRow(skills, i) <==> key == "month" || Contributes(skills, i, key) {
      PivotKeys(skills, i, base, key);
    }
    PivotKeys(skills, i, base, "month");
    forall j | 0 <= j < |skills| && LastContributor(skills, i, j)
      ensures skills[j].name in ChartRow(skills, i) && ChartRow(skills, i)[skills[j].name] == ValueCell(skills[j].data[i].value)
    {
      PivotLastWins(skills, i, base, j);
    }
  }

  /** Row `i` of `chartData` is the chart row for month index `i`. */
  lemma ChartDataRows(skills: seq<SkillSeries>, i: nat)
    requires |skills| > 0 && i < |skills[0].data|
    ensures i < |ChartData(skills)| && ChartData(skills)[i] == ChartRow(skills, i)
  {
  }

  /** A skill whose series is shorter than a row's index contributes no key
      to that row, unless another skill of the same name does. */
  lemma ShortSeriesContributeNothing(skills: seq<SkillSeries>, i: nat, j: nat)
    requires |skills| > 0 && i < |skills[0].data|
    requires j < |skills| && |skills[j].data| <= i && skills[j].name != "month"
    requires forall j2 :: 0 <= j2 < |skills| && skills[j2].name == skills[j].name ==> |skills[j2].data| <= i
    ensures skills[j].name !in ChartData(skills)[i]
  {
    ChartDataRows(skills, i);
    ChartRowContents(skills, i);
    assert !Contributes(skills, i, skills[j].name);
  }

  /** The `COLORS` palette. */
  const Colors: seq<string> := ["#ffffff", "#a855f7", "#3b82f6", "#22c55e", "#eab308"]

  /** The colour of the skill at position `k`, used both for its chart line
      and for its legend dot. */
  function ColorAt(k: nat): (c: string)
    ensures c in Colors
  {
    Colors[k % |Colors|]
  }

  /** Colours repeat every five skills, and five consecutive skills get
      five different colours. */
  lemma ColorsCycle(k: nat, d: nat)
    ensures ColorAt(k + 5) == ColorAt(k)
    ensures 0 < d < 5 ==> ColorAt(k + d) != ColorAt(k)
  {
    assert (k + 5) % 5 == k % 5;
  }

  /** The sign prefix shown before the growth rate. */
  function GrowthPrefix(growthRate: real): (p: string)
    ensures p == "+" <==> growthRate > 0.0
    ensures p == "" <==> growthRate <= 0.0
  {
    if growthRate > 0.0 then "+" else ""
  }

  /** The icon and colour that `getTrendIcon` and `getTrendColor` select. */
  datatype TrendStyle = Up | Down | Flat

  function TrendStyleOf(trend: string): (t: TrendStyle)
    ensures t == Up <==> trend == "rising"
    ensures t == Down <==> trend == "falling"
    ensures t == Flat <==> trend != "rising" && trend != "falling"
  {
    match trend
    case "rising" => Up
    case "falling" => Down
    case _ => Flat
  }

  /** `getTrendColor`. */
  function TrendColor(trend: string): (c: string)
    ensures c == "text-green-400" <==> trend == "rising"
    ensures c == "text-red-400" <==> trend == "falling"
    ensures c == "text-neutral-400" <==> TrendStyleOf(trend) == Flat
  {
    match TrendStyleOf(trend)
    case Up => "text-green-400"
    case Down => "text-red-400"
    case Flat => "text-neutral-400"
  }
}

=== FILE: tambo_tools.dfy ===
/** The simulated tools of `src/lib/tambo.ts`: resume keyword extraction,
    job-requirement lookup and learning-resource suggestions. The random
    years-of-experience figure of `analyzeResume` is not modelled. */
module TamboTools {
  import opened Ascii

  // ---------------------------------------------------------------------
  // analyzeResume

  /** The `techKeywords` list, in its order. */
  const TechKeywords: seq<string> := [
    "react", "node", "typescript", "javascript", "python", "java",
    "aws", "docker", "kubernetes", "sql", "mongodb", "redis",
    "git", "ci/cd", "rest api", "graphql", "nextjs", "express",
    "html", "css", "tailwind", "figma", "agile", "scrum"
  ]

  /** The `currentLevel` enum of the tool's output schema. */
  datatype Seniority = Junior | Mid | Senior

  datatype ResumeAnalysis = ResumeAnalysis(extractedSkills: seq<string>, currentLevel: Seniority)

  /** `a` can be obtained from `b` by deleting elements. */
  predicate IsSubsequence<T(==)>(a: seq<T>, b: seq<T>)
    decreases |b|
  {
    |a| == 0 || (|b| > 0 && ((a[0] == b[0] && IsSubsequence(a[1..], b[1..])) || IsSubsequence(a, b[1..])))
  }

  /** `keywords.filter(k => text.includes(k))`. */
  function KeywordsIn(text: string, keywords: seq<string>): (r: seq<string>)
    ensures IsSubsequence(r, keywords)
    ensures forall k :: k in r <==> k in keywords && Includes(text, k)
    ensures |r| <= |keywords|
  {
    if |keywords| == 0 then []
    else
      var rest := KeywordsIn(text, keywords[1..]);
      assert forall k :: k in keywords <==> k == keywords[0] || k in keywords[1..];
      if Includes(text, keywords[0]) then
        var r := [keywords[0]] + rest;
        assert r[1..] == rest;
        r
      else
        rest
  }

  /** The seniority band of a skill count. */
  function SeniorityFor(count: nat): (r: Seniority)
    ensures r == Senior <==> count > 10
    ensures r == Mid <==> 6 <= count <= 10
    ensures r == Junior <==> count <= 5
  {
    if count > 10 then Senior else if count > 5 then Mid else Junior
  }

  /** `analyzeResume` without the random years of experience. */
  function AnalyzeResume(resumeText: string): (r: ResumeAnalysis)
    ensures IsSubsequence(r.extractedSkills, TechKeywords)
    ensures forall k :: k in r.extractedSkills <==> k in TechKeywords && Includes(ToLower(resumeText), k)
    ensures r.currentLevel == SeniorityFor(|r.extractedSkills|)
  {
    var found := KeywordsIn(ToLower(resumeText), TechKeywords);
    ResumeAnalysis(found, SeniorityFor(|found|))
  }

  /** Resumes that differ only in letter case are analysed identically. */
  lemma AnalyzeResumeIgnoresCase(resumeText: string)
    ensures AnalyzeResume(ToUpper(resumeText)) == AnalyzeResume(resumeText)
    ensures AnalyzeResume(ToLower(resumeText)) == AnalyzeResume(resumeText)
  {
    ToLowerOfToUpper(resumeText);
    ToLowerIdempotent(resumeText);
  }

  /** Substring matching: a resume in which "javascript" is found also
      yields "java", whether or not Java is mentioned on its own. */
  lemma JavascriptImpliesJava(resumeText: string)
    requires Includes(ToLower(resumeText), "javascript")
    ensures "javascript" in AnalyzeResume(resumeText).extractedSkills
    ensures "java" in AnalyzeResume(resumeText).extractedSkills
  {
    JavaListedAsPrefix();
    PrefixKeywordsFound(ToLower(resumeText), TechKeywords, "javascript", "java");
  }

  /** "javascript" and "java" are listed keywords, the second a prefix of
      the first. */
  lemma JavaListedAsPrefix()
    ensures "javascript" in TechKeywords && "java" in TechKeywords && "java" <= "javascript"
  {
  }

  /** A listed keyword that is a prefix of a found keyword is found too. */
  lemma PrefixKeywordsFound(text: string, keywords: seq<string>, long: string, short: string)
    requires long in KeywordsIn(text, keywords)
    requires short in keywords && short <= long
    ensures short in KeywordsIn(text, keywords)
  {
    IncludesPrefix(text, long, short);
  }

  // ---------------------------------------------------------------------
  // getJobRequirements

  /** The `roleRequirements` table. */
  const RoleTable: map<string, seq<string>> := map[
    "full-stack developer" := ["react", "node", "typescript", "sql", "docker", "aws", "git", "rest api"],
    "frontend developer" := ["react", "typescript", "css", "tailwind", "nextjs", "figma", "testing"],
    "backend developer" := ["node", "python", "sql", "docker", "kubernetes", "aws", "redis", "graphql"],
    "data scientist" := ["python", "sql", "machine learning", "tensorflow", "pandas", "statistics"],
    "devops engineer" := ["docker", "kubernetes", "aws", "terraform", "ci/cd", "linux", "monitoring"],
    "sde-2" := ["system design", "dsa", "react", "node", "typescript", "sql", "docker", "aws"]
  ]

  /** The requirements given for a role the table does not know. */
  const FallbackSkills: seq<string> := ["programming", "problem solving", "communication"]

  /** The property names every object literal inherits from
      `Object.prototype`; each of them names a truthy value. The lookup key
      is lower-cased first, so only "constructor" and "__proto__" can ever
      reach this set; the other names contain capitals. */
  const InheritedNames: set<string> := {
    "constructor", "hasOwnProperty", "isPrototypeOf", "propertyIsEnumerable",
    "toLocaleString", "toString", "valueOf", "__proto__",
    "__defineGetter__", "__defineSetter__", "__lookupGetter__", "__lookupSetter__"
  }

  /** What `roleRequirements[key] || fallback` evaluates to as written: a
      skill list, or an inherited member that is not a list at all. */
  datatype Requirement = SkillList(skills: seq<string>) | InheritedMember(name: string)

  /** The lookup as written: the table's own entries, then the inherited
      members of a plain object, then the fallback. */
  function LookupAsWritten(targetRole: string): (r: Requirement)
    ensures r.InheritedMember? <==> ToLower(targetRole) !in RoleTable && ToLower(targetRole) in InheritedNames
    ensures r.InheritedMember? ==> r.name == ToLower(targetRole)
    ensures r.SkillList? ==> r.skills == (if ToLower(targetRole) in RoleTable then RoleTable[ToLower(targetRole)] else FallbackSkills)
  {
    var key := ToLower(targetRole);
    if key in RoleTable then SkillList(RoleTable[key])
    else if key in InheritedNames then InheritedMember(key)
    else SkillList(FallbackSkills)
  }

  /** As written, the role "Constructor" is answered with the object
      constructor rather than a skill list. */
  lemma ConstructorRoleIsNotAList()
    ensures LookupAsWritten("Constructor") == InheritedMember("constructor")
  {
    assert ToLower("Constructor") == "constructor";
  }

  datatype JobRequirements = JobRequirements(role: string, requiredSkills: seq<string>, averageSalary: string, demandLevel: string)

  /** `getJobRequirements`, with the lookup restricted to the table's own
      entries: case-insensitive, echoing the role, falling back for every
      role the table does not list. */
  function GetJobRequirements(targetRole: string): (r: JobRequirements)
    ensures r.role == targetRole
    ensures r.averageSalary == "$80,000 - $150,000" && r.demandLevel == "high"
    ensures ToLower(targetRole) in RoleTable ==> r.requiredSkills == RoleTable[ToLower(targetRole)]
    ensures r.requiredSkills == FallbackSkills <==> ToLower(targetRole) !in RoleTable
  {
    var key := ToLower(targetRole);
    var skills := if key in RoleTable then RoleTable[key] else FallbackSkills;
    JobRequirements(targetRole, skills, "$80,000 - $150,000", "high")
  }

  /** The corrected lookup agrees with the code as written on every role
      that does not lower-case to an inherited property name. */
  lemma LookupAgreesOffPrototype(targetRole: string)
    requires ToLower(targetRole) !in InheritedNames
    ensures LookupAsWritten(targetRole) == SkillList(GetJobRequirements(targetRole).requiredSkills)
  {
  }

  /** Role lookup ignores letter case. */
  lemma JobRequirementsIgnoreCase(targetRole: string)
    ensures GetJobRequirements(ToUpper(targetRole)).requiredSkills == GetJobRequirements(targetRole).requiredSkills
  {
    ToLowerOfToUpper(targetRole);
  }

  // ---------------------------------------------------------------------
  // getLearningResources

  datatype LearningResource = LearningResource(name: string, kind: string, url: string)

  datatype LearningPlan = LearningPlan(skill: string, resources: seq<LearningResource>, estimatedTime: string)

  /** `getLearningResources`: always four resources, documentation,
      tutorial, course, project, three of them named after the skill; four
      weeks for beginners and two otherwise. */
  function GetLearningResources(skill: string, level: string): (r: LearningPlan)
    ensures r.skill == skill
    ensures |r.resources| == 4
    ensures [r.resources[0].kind, r.resources[1].kind, r.resources[2].kind, r.resources[3].kind]
         == ["documentation", "tutorial", "course", "project"]
    ensures forall j :: 1 <= j < 4 ==> Includes(r.resources[j].name, skill)
    ensures forall j :: 0 <= j < 4 ==> r.resources[j].url == "#"
    ensures r.estimatedTime == "4 weeks" <==> level == "beginner"
    ensures r.estimatedTime == "2 weeks" <==> level != "beginner"
  {
    var resources := [
      LearningResource("Official Documentation", "documentation", "#"),
      LearningResource(skill + " Crash Course - YouTube", "tutorial", "#"),
      LearningResource("Complete " + skill + " Bootcamp - Udemy", "course", "#"),
      LearningResource("Build a project with " + skill, "project", "#")
    ];
    assert OccursAt(skill, resources[1].name, 0);
    assert OccursAt(skill, resources[2].name, 9);
    assert OccursAt(skill, resources[3].name, 21);
    LearningPlan(skill, resources, if level == "beginner" then "4 weeks" else "2 weeks")
  }
}

=== FILE: theme_context.dfy ===
/** The theme provider of `ThemeContext.tsx`: a theme value that starts as
    "dark", adopts a saved value on mount, toggles between "dark" and
    "light", persists every toggle under `ascend-theme`, and keeps the
    document root's class list in step. The saved value is cast to the
    theme type without any check, so the theme is any string here. */
module ThemeContext {
  import opened Options

  datatype ThemeState = ThemeState(theme: string, mounted: bool, saved: Option<string>, rootClasses: set<string>)

  /** The provider before its mount effect has run: theme "dark", the saved
      value and the root classes as the page was served. */
  function Initial(saved: Option<string>, rootClasses: set<string>): (st: ThemeState)
    ensures st.theme == "dark" && !st.mounted
    ensures st.saved == saved && st.rootClasses == rootClasses
  {
    ThemeState("dark", false, saved, rootClasses)
  }

  /** `applyTheme`: "dark" adds the dark class and removes the light one;
      any other theme does the reverse. */
  function ApplyTheme(classes: set<string>, theme: string): (r: set<string>)
    ensures ("dark" in r) != ("light" in r)
    ensures "dark" in r <==> theme == "dark"
    ensures forall c :: c != "dark" && c != "light" ==> (c in r <==> c in classes)
  {
    if theme == "dark" then classes + {"dark"} - {"light"}
    else classes - {"dark"} + {"light"}
  }

  /** The mount effect: a non-empty saved value becomes the theme and is
      applied; otherwise the theme stays "dark" and the root is untouched. */
  function Mount(st: ThemeState): (t: ThemeState)
    ensures t.mounted && t.saved == st.saved
    ensures st.saved.Some? && st.saved.value != "" ==>
      t.theme == st.saved.value && t.rootClasses == ApplyTheme(st.rootClasses, st.saved.value)
    ensures st.saved.None? || st.saved.value == "" ==> t.theme == st.theme && t.rootClasses == st.rootClasses
  {
    match st.saved
    case Some(v) =>
      if v != "" then st.(mounted := true, theme := v, rootClasses := ApplyTheme(st.rootClasses, v))
      else st.(mounted := true)
    case None => st.(mounted := true)
  }

  /** The theme a toggle switches to. */
  function Toggled(theme: string): (r: string)
    ensures r == "light" <==> theme == "dark"
    ensures r == "dark" <==> theme != "dark"
  {
    if theme == "dark" then "light" else "dark"
  }

  /** `toggleTheme`: switch, persist the new theme, apply it. */
  function Toggle(st: ThemeState): (t: ThemeState)
    ensures t.theme == Toggled(st.theme) && t.saved == Some(t.theme)
    ensures t.rootClasses == ApplyTheme(st.rootClasses, t.theme)
    ensures t.mounted == st.mounted
  {
    var next := Toggled(st.theme);
    st.(theme := next, saved := Some(next), rootClasses := ApplyTheme(st.rootClasses, next))
  }

  /** Toggling twice from "dark" or "light" restores the theme and the root
      classes as the first toggle's application of the theme left them. */
  lemma ToggleTwiceRestores(st: ThemeState)
    requires st.theme == "dark" || st.theme == "light"
    ensures Toggle(Toggle(st)).theme == st.theme
    ensures Toggle(Toggle(st)).saved == Some(st.theme)
    ensures Toggle(Toggle(st)).rootClasses == ApplyTheme(st.rootClasses, st.theme)
  {
    var classes := Toggle(Toggle(st)).rootClasses;
    var expected := ApplyTheme(st.rootClasses, st.theme);
    assert forall c :: c in classes <==> c in expected by {
      forall c ensures c in classes <==> c in expected {
        if c != "dark" && c != "light" {
        }
      }
    }
  }

  /** A saved value other than "dark" or "light" is adopted as it is and
      puts the root in light mode; toggling it twice does not bring it back. */
  lemma UnvalidatedSavedTheme(rootClasses: set<string>)
    ensures var st := Mount(Initial(Some("blue"), rootClasses));
      && st.theme == "blue"
      && "light" in st.rootClasses && "dark" !in st.rootClasses
      && Toggle(Toggle(st)).theme == "light"
  {
  }

  /** With a non-empty saved value, the mounted root carries exactly one of
      the dark and light classes, dark exactly when the theme is "dark". */
  lemma MountedRootMatchesSavedTheme(saved: string, rootClasses: set<string>)
    requires saved != ""
    ensures var st := Mount(Initial(Some(saved), rootClasses));
      ("dark" in st.rootClasses <==> st.theme == "dark") && ("light" in st.rootClasses <==> st.theme != "dark")
  {
  }
}
